=== FILE: README.md ===
# Skin-analysis rule engine, modelled in Dafny

This project models the deterministic core of the skin-analysis backend: the
rules that turn the detector's predictions for one facial photo into a report.

1. **Exclusion filter.** Drops freckle predictions. The class is lower-cased and
   tested against `EXCLUDED_CLASSES`.
2. **Fold.** Builds the detections, the confidence total and the per-class
   detection summary. The summary is kept in insertion order, as Python
   dictionaries are.
3. **Skin score.** A tiered, weighted penalty per class, capped at 70,
   subtracted from 100, truncated and clamped to [30, 100].
4. **Severity.** Buckets the score: clear ≥ 85, mild ≥ 70, moderate ≥ 50,
   severe otherwise.
5. **Feedback.** The "Analysis detected: …" text and the ordered,
   de-duplicated recommendation list, with the dermatologist referral and the
   general-advice fill. The legacy count-based `generate_feedback` is also
   modelled.
6. **Severity repair.** The one-off `fix_severity.py` script, modelled as a
   pure function and as a loop over an in-memory table of stored analyses.

Modules, one file each: `Wrappers` (Option/Result), `Text` (Python
`lower`/`replace`/`title`/`str`/`join`), `Summaries`, `Detections`, `Scoring`,
`Severities`, `Feedback`, `Records` (the stored row), `Analysis` (the
pipeline) and `FixSeverity`.

Facts about the code worth stating up front:

- The base score and the upper clamp are both 100.
- There is one detector and nothing is merged.
- Only the general-advice fill stops at five lines; `Feedback.NoOverallCap`
  shows a 16-line list.
- The `fix_severity.py` table has a floating-point, nullable `score` column,
  so the repair takes an optional real score.

## Model

| member | source | states |
|---|---|---|
| Detections.CapitalisedEntriesInert | routers/analysis.py:27 | The capitalised entries "Freckles" and "Freckle" can never equal a lower-cased class, so they never exclude anything |
| Detections.KeptIff | routers/analysis.py:262-265 | A prediction is kept exactly when its lower-cased class (empty when missing) is neither "freckles" nor "freckle"; a prediction with no class is kept |
| Detections.FilterPredictions | routers/analysis.py:262-265 | The kept list holds exactly the input predictions that pass the exclusion test and is no longer than the input |
| Detections.FilterAppend | routers/analysis.py:262-265 | Filtering distributes over concatenation, so kept predictions keep their original relative order |
| Detections.FilterIdempotent | routers/analysis.py:262-265 | Filtering a filtered list changes nothing |
| Detections.FilterMultiplicity | routers/analysis.py:262-265 | A kept prediction occurs as often as in the input; an excluded one never occurs |
| Detections.CapitalisedFrecklesExcluded | routers/analysis.py:262-265 | Predictions of class "Freckles" or "FRECKLE" are dropped, because the class is lower-cased before the test |
| Detections.ClassName | routers/analysis.py:282 | A detection is counted under its class, or "unknown" when the prediction has none |
| Detections.KeptClassName | routers/analysis.py:282 | The class a kept prediction is counted under ("unknown" when missing) never lower-cases to a freckle class |
| Detections.ToDetection | routers/analysis.py:282-291 | Building a detection fails exactly when the box or the confidence is missing; otherwise it carries the prediction's box (x, y, width, height), class (default "unknown") and confidence |
| Detections.Fold | routers/analysis.py:281-293 | The loop succeeds exactly when every kept prediction has all fields, and then yields one detection per prediction, in order, with that prediction's box, class and confidence |
| Detections.FoldTotals | routers/analysis.py:281-293 | The running total is the sum of the detections' confidences and the summary is the per-class count of the predictions' class names |
| Detections.FoldSummary | routers/analysis.py:281-295 | The summary has distinct keys, holds exactly the classes seen, counts each as often as it occurs, and its counts sum to the number of kept predictions |
| Detections.AverageConfidenceBounds | routers/analysis.py:295-296 | The average confidence is 0 when there are no detections and lies in [0, 1] when every confidence does |
| Detections.AverageConfidence | routers/analysis.py:295-296 | With no detections the average is 0; otherwise the average times the number of detections gives back the confidence total |
| Summaries.AddCount | routers/analysis.py:293 | Counting one detection raises its class by one and leaves every other class unchanged |
| Summaries.Add | routers/analysis.py:293 | A class already present keeps its position and the summary keeps its length; a new class is appended with count 1; no existing key changes |
| Summaries.Summarize | routers/analysis.py:281-293 | The summary built by the loop has distinct keys, no more keys than detections, and counts summing to the number of detections |
| Summaries.SummarizeCounts | routers/analysis.py:281-293 | Counting a sequence of class names yields distinct keys, one per name seen, each counted by its multiplicity, all counts at least 1, summing to the sequence length |
| Summaries.Count | routers/analysis.py:152 | `get(name, 0)` is 0 for a class not in the summary and that class's count when it is |
| Summaries.Total | routers/analysis.py:118 | The sum of the counts is at least every single count, and 0 exactly when every count is 0 |
| Summaries.SummarizeFirstOccurrence | routers/analysis.py:281-293 | Every key was seen, and the keys are listed in the order of their first detection |
| Summaries.SummarizeEmpty | routers/analysis.py:276-296 | The summary is empty exactly when there are no detections |
| Scoring.Weight | routers/analysis.py:80-100 | The weight lookup returns the table value, 4 for a class outside the table, and always lies in [2, 8] |
| Scoring.PenaltyBounds | routers/analysis.py:102-109 | The penalty for `count` detections lies between 0.8 and 1.2 times count × weight, the cheapest and the dearest tier rates |
| Scoring.PenaltyPerDetection | routers/analysis.py:99-109 | With any weight in the table's range [2, 8], each detection of a class costs between 1.6 and 9.6 points |
| Scoring.PenaltyStep | routers/analysis.py:102-109 | The tiers join without a jump: each further detection adds its tier's share of the weight (1, 1.2, 1, then 0.8 times), and zero detections cost nothing |
| Scoring.PenaltyIsStepSum | routers/analysis.py:102-109 | The closed tier formula equals the sum of the marginal costs of the detections one by one |
| Scoring.PenaltyAtTierEnds | routers/analysis.py:102-109 | At counts 2, 5 and 10 the penalty is 2, 5.6 and 10.6 times the weight |
| Scoring.PenaltyMonotone | routers/analysis.py:102-111 | The per-class penalty is never negative and never decreases as the count grows |
| Scoring.TotalPenaltyAppend | routers/analysis.py:99-111 | The uncapped total over a summary is the sum of the totals over any split of its entries |
| Scoring.TotalPenaltySingle | routers/analysis.py:99-109 | One class is charged its tiered penalty at its own table weight |
| Scoring.TotalPenalty | routers/analysis.py:99-111 | The uncapped total is never negative and costs between 1.6 and 9.6 points per detection: the lightest weight at the cheapest rate and the heaviest at the dearest |
| Scoring.Trunc | routers/analysis.py:115 | `int(x)` truncates toward zero: a non-negative value drops its fraction, a negative one rounds up, each by less than one |
| Scoring.SkinScore | routers/analysis.py:76-115 | The score lies in [30, 100], is 100 for an empty summary, and is the integer part of 100 minus the capped penalty |
| Scoring.ClampNeverBinds | routers/analysis.py:113-115 | The penalty cap alone keeps the raw score at or above 30 and it never exceeds 100, so truncation equals floor and the final clamp changes nothing |
| Scoring.CapReachesMinimum | routers/analysis.py:113-115 | A summary whose total penalty reaches 70 scores exactly 30 |
| Scoring.EmptyScoresFull | routers/analysis.py:77-78 | The empty summary scores exactly 100 |
| Scoring.UnknownClassWeight | routers/analysis.py:100 | A class outside the weight table is charged with weight 4 |
| Scoring.RaiseNeverImproves | routers/analysis.py:99-115 | Raising any single class count, or adding a new class, never raises the score |
| Scoring.AddNeverImproves | routers/analysis.py:99-115 | One more detection of any class never raises the score |
| Scoring.OneCystic | routers/analysis.py:99-115 | One cystic lesion costs 8 and scores 92 |
| Scoring.ThreeCystic | routers/analysis.py:99-115 | Three cystic lesions cost 25.6 and score 74, by truncation rather than rounding |
| Scoring.ThreeBlackheads | routers/analysis.py:99-115 | Three blackheads cost 12.8 and score 87 |
| Severities.FromScore | routers/analysis.py:211-222 | The tier is the one whose interval contains the score (clear ≥ 85, mild [70, 85), moderate [50, 70), severe < 50), and no other tier contains it |
| Severities.FromScoreMonotone | routers/analysis.py:211-222 | A higher score never yields a worse tier |
| Feedback.ApplyBlockShape | routers/analysis.py:139-196 | One condition block keeps the lines collected so far as a prefix, adds nothing when its condition is false, leaves every line of the block present when it is true, and introduces no duplicate |
| Feedback.AppendNew | routers/analysis.py:146-149 | Appending a block through the seen-set keeps the earlier lines as a prefix, adds only block lines, loses none, and introduces no duplicate |
| Feedback.FillGeneral | routers/analysis.py:204-207 | The earlier lines stay as a prefix, only general lines are added, none twice, and the list never grows past five lines (a list already longer stays as it is) |
| Feedback.FeedbackText | routers/analysis.py:128-134 | The feedback text starts with "Analysis detected: " and ends with a period |
| Feedback.FeedbackTextPair | routers/analysis.py:128-134 | The classes are listed in summary order, each as "<count> <name>", separated by ", " between the prefix and the period |
| Feedback.Concern | routers/analysis.py:129-131 | A concern is the count in decimal, which reads back as the count, then a space, then the class name with underscores as spaces and title-cased, so no underscore is left |
| Feedback.ConcernBlackheads | routers/analysis.py:129-131 | A count of 3 blackheads reads "3 Blackhead" |
| Feedback.ConcernAcneScars | routers/analysis.py:129-131 | A count of 12 acne scars reads "12 Acne Scars": underscores become spaces and each word is capitalised |
| Feedback.CollectedIsExpected | routers/analysis.py:136-196 | De-duplication never drops a line: the collected list is exactly the fired blocks concatenated in order |
| Feedback.RecommendationsShape | routers/analysis.py:136-207 | The list is the fired blocks in order, followed by all three general lines exactly when fewer than three were collected |
| Feedback.RecommendationsOrdered | routers/analysis.py:136-207 | Lines appear in block order: breakout, referral, blackhead, whitehead, scars, milium, general |
| Feedback.Recommendations | routers/analysis.py:136-207 | The list has no duplicates, starts with the lines collected from the condition blocks, holds nothing but those and general lines, and exceeds five lines only when no general line was added |
| Feedback.BlockMembership | routers/analysis.py:139-196 | A condition block's line is present exactly when that block's condition holds |
| Feedback.ReferralIff | routers/analysis.py:151-156 | The referral is present exactly when cystic, purulent or conglobata is present and the cystic plus purulent count exceeds 3 |
| Feedback.GeneralFillRule | routers/analysis.py:198-207 | General advice is present exactly when fewer than three lines were collected, the list then stays within five, and it always has at least three lines |
| Feedback.NoOverallCap | routers/analysis.py:136-209 | A summary with more than three cystic lesions and blackheads, whiteheads, scars and milia gets sixteen lines |
| Feedback.EveryBlockFires | routers/analysis.py:136-196 | A concrete summary (four cystic, one each of blackhead, whitehead, acne_scars and milium) fires every condition block and gets 16 lines |
| Feedback.GenerateFeedbackMulti | routers/analysis.py:117-209 | A zero-total summary gives the three-value result with "clear" and the four maintenance lines; any other summary gives the two-value result: the "Analysis detected" text of the summary and its recommendation list, at least three distinct lines |
| Feedback.IntToString | routers/analysis.py:47 | The f-string rendering of the count has a minus sign exactly for a negative count, then the digits of its magnitude, which read back as the magnitude and have no leading zero |
| Feedback.LegacySeverity | routers/analysis.py:36-65 | The legacy tier is clear exactly at count 0, mild for other counts up to 5 (negative counts included), moderate for 6 to 15, and severe above 15 |
| Feedback.GenerateFeedback | routers/analysis.py:36-74 | The legacy tier is the count tier of `LegacySeverity`; the clear tier, and only it, gives the "Great news!" message; any other tier gives "You have ", the count as an f-string prints it, and that tier's wording ("acne spot(s)" for mild, "acne spots" otherwise) |
| Feedback.LegacyMonotone | routers/analysis.py:36-74 | For non-negative counts, more spots never give a milder legacy tier |
| Analysis.AnalyzeFace | routers/analysis.py:259-343 | As written: every failure is HTTP 500, and the request succeeds exactly when some prediction survives the filter and all survivors have their fields |
| Analysis.AsWrittenRejectsClearSkin | routers/analysis.py:300 | When no prediction survives the filter, the two-value unpacking of the three-value result makes the request fail with HTTP 500 |
| Analysis.NoPredictionsFails | routers/analysis.py:120-126 | A detector response with no predictions fails as written and succeeds once the empty case is handled |
| Analysis.AnalyzeFaceIntended | routers/analysis.py:120-126 | Corrected: the request succeeds exactly when every kept prediction has its fields; with nothing detected it reports score 100, clear, confidence 0, the clear message and the maintenance lines |
| Analysis.AgreeWhenDetected | routers/analysis.py:299-301 | Whenever something survives the filter, the as-written and corrected pipelines return the same result |
| Analysis.ReportInvariants | routers/analysis.py:295-301 | A report has a score in [30, 100], the severity that score calls for, a count equal to the kept predictions and to the summary total, distinct keys, and distinct recommendations, at least three when something was detected; the feedback text and recommendations are the summary's when something was detected, and the four maintenance lines otherwise |
| Analysis.ReportSummary | routers/analysis.py:281-299 | The report's summary is the fold's summary over the kept predictions |
| Analysis.ExcludedNeverCounted | routers/analysis.py:262-293 | No class in a report's summary lower-cases to "freckles" or "freckle" |
| Analysis.ReportScore | routers/analysis.py:299-301 | A report's score and count come from the fold over the kept predictions, and its severity from its score |
| Analysis.ThreeBlackheadsEndToEnd | routers/analysis.py:259-301 | Three blackhead predictions give count 3, score 87 and severity clear |
| Analysis.ToRecord | routers/analysis.py:308-318 | The stored row holds the user, the report's count, its severity name, its score as a float and its feedback text; a report whose severity is its score's tier is stored with the severity string of its stored score's tier |
| FixSeverity.SameThresholds | fix_severity.py:3-11 | The script's copy of the severity function agrees with the router's on every score |
| FixSeverity.DetermineSeverity | fix_severity.py:3-11 | "clear" exactly at 85 or more, "mild" in [70, 85), "moderate" in [50, 70) and "severe" below 50 |
| FixSeverity.DetermineSeverityMonotone | fix_severity.py:3-11 | A higher score never yields a worse tier, and every score yields one of the four tiers |
| FixSeverity.Fix | fix_severity.py:21-26 | After one step the record's severity is the one its score calls for, no other field changes, and a consistent record is untouched |
| FixSeverity.FirstMissing | fix_severity.py:20-22 | Finds the first record without a score: every record before it has one |
| FixSeverity.Repair | fix_severity.py:20-26 | The repair fails on the first record without a score; otherwise every record ends consistent, only severities change, and consistent records are untouched |
| FixSeverity.RepairIdempotent | fix_severity.py:20-26 | Running the repair on its own output changes nothing |
| FixSeverity.RepairFixesConsistent | fix_severity.py:24-26 | A table whose records are all consistent is returned unchanged |
| FixSeverity.RepairLoop | fix_severity.py:20-29 | The in-place loop commits exactly what the repair function computes and reports as fixed exactly the records whose stored severity differed |
| FixSeverity.SavedAnalysisNeedsNoRepair | routers/analysis.py:308-318 | A row saved from a report already has the severity its score calls for, so the repair leaves it alone |
| Text.NatToStringRoundTrip | routers/analysis.py:131 | The decimal rendering of a count reads back as the same count |
| Text.NatToString | routers/analysis.py:131 | `str(n)` is at least one character long, all decimal digits, with no leading zero |
| Text.Lower | routers/analysis.py:264 | `lower()` keeps the length, turns each upper-case letter into the lower-case letter at the same alphabet position, and leaves every other character unchanged |
| Text.Title | routers/analysis.py:130 | `title()` keeps the length, keeps letters letters and other characters unchanged, lower-cases a letter that follows a letter and upper-cases every other letter, and never changes which letter it is (both sides lower-case alike) |
| Text.SpaceUnderscores | routers/analysis.py:130 | `replace('_', ' ')` keeps the length, turns every underscore into a space, and leaves every other character unchanged |
| Text.Join | routers/analysis.py:133 | `", ".join(parts)` is empty for no parts; otherwise, with one separator appended, it is every part in order, each followed by the separator |

## Findings

| source | as written | input that shows it | evidently intended | confidence | as-written member | corrected member |
|---|---|---|---|---|---|---|
| routers/analysis.py:121 | For an empty summary, `generate_feedback_multi` returns three values, but the caller at line 300 unpacks two. The `ValueError` becomes HTTP 500. | A detector response with no predictions, or with only freckles | Report clear skin: score 100, severity clear, the clear message and the four maintenance lines | high; not executed | Analysis.AsWrittenRejectsClearSkin | Analysis.AnalyzeFaceIntended |

`Analysis.ReportInvariants`, `Analysis.ExcludedNeverCounted` and
`FixSeverity.SavedAnalysisNeedsNoRepair` are stated over the corrected pipeline.

## Left out

- HTTP routing, upload validation, temporary-file handling and HEIC conversion are framework and filesystem I/O. The response timestamp and the annotated-image URL are left out too.
- The call to the external detector is a network client. Its JSON result is the input of `Analysis.AnalyzeFace`.
- Drawing the annotated image is left out. It is cosmetic, and its failures would only add HTTP 500 paths.
- Authentication, the user lookup and the database session are left out. Persistence is reduced to `Analysis.ToRecord` and an in-memory table for the repair script.
- `json.dumps` of the summary and the recommendations is not modelled. The stored JSON texts are parameters of `Analysis.ToRecord`.
- Console `print` output is left out. The repair's "Fixing …" lines appear only as the `fixed` count of `FixSeverity.RepairLoop`.
- Floating point: penalties, the confidence total and the average are exact reals. Python computes them in binary floats. A float penalty that ends slightly above the exact value, for example after summing several inexact terms, can leave `100 - penalty` just under an integer; `int()` then gives one less than the model does.
- A NaN score in the stored table is not modelled. Python compares NaN as false, which yields "severe".
- Case mapping is on ASCII letters only. `str.lower()` and `str.title()` also map other Unicode letters; for example, the Kelvin sign lower-cases to "k".
- Pydantic type validation of detection fields is not modelled. Only a missing key is an error path.
- `avg_confidence` is accepted by the scoring and feedback functions but never used, so the model leaves the parameter out.
- Feedback.FeedbackText: the contract states only the "Analysis detected: " prefix and the closing period. The per-class wording is shown for two entries by `Feedback.FeedbackTextPair` and for two concrete classes, not for summaries of any length.
- Feedback.GenerateFeedbackMulti: the contract does not restate the three-value branch's message text. The text is given by `ClearMessage` and stated in `Analysis.AnalyzeFaceIntended`.
- Feedback.GenerateFeedback: the contract does not state the four recommendation lists. They are literal constants, listed as written in `LegacyRecs`. The message texts are stated, through `LegacyClearMessage` and `LegacySuffix`.

=== FILE: analysis.dfy ===
/**
 * The rule-engine core of `analyze_face`: filter, fold, score, feedback and
 * severity, from the detector's predictions to the report, together with
 * the row saved for a signed-in user.
 */
module Analysis {
  import opened Wrappers
  import opened Summaries
  import opened Detections
  import opened Scoring
  import opened Severities
  import opened Feedback
  import opened Records
  import Text

  /** `AnalysisResponse` without the timestamp and the annotated-image URL. */
  datatype Report = Report(
    acneCount: nat,
    skinScore: int,
    averageConfidence: real,
    detections: seq<Detection>,
    summary: Summary,
    feedback: string,
    severity: Severity,
    recommendations: seq<string>
  )

  /** Why the request fails; the broad handler turns every cause into HTTP 500. */
  datatype Cause =
    | PredictionMissingField
    | TooManyValuesToUnpack

  datatype HttpError = HttpError(status: nat, cause: Cause)

  const InternalServerError: nat := 500

  /** `roboflow_result.get("predictions", [])`. */
  function Predictions(raw: Option<seq<Prediction>>): seq<Prediction> {
    raw.GetOr([])
  }

  function Filtered(raw: Option<seq<Prediction>>): seq<Prediction> {
    FilterPredictions(Predictions(raw))
  }

  function MakeReport(t: Tally, feedback: string, recommendations: seq<string>): Report {
    var score := SkinScore(t.summary);
    Report(|t.detections|, score, AverageConfidence(t), t.detections, t.summary,
           feedback, FromScore(score as real), recommendations)
  }

  /**
   * `analyze_face` as written: the caller unpacks two values from
   * `generate_feedback_multi`, so the three-value result for an empty
   * summary raises and the request fails.
   */
  function AnalyzeFace(raw: Option<seq<Prediction>>): (r: Result<Report, HttpError>)
    ensures r.Failure? ==> r.error.status == InternalServerError
    ensures r.Success? <==> |Filtered(raw)| > 0 && forall p :: p in Filtered(raw) ==> WellFormed(p)
  {
    match Fold(Filtered(raw))
    case Failure(_) => Failure(HttpError(InternalServerError, PredictionMissingField))
    case Success(t) =>
      FoldSummary(Filtered(raw));
      match GenerateFeedbackMulti(t.summary)
      case Triple(_, _, _) => Failure(HttpError(InternalServerError, TooManyValuesToUnpack))
      case Pair(feedback, recommendations) => Success(MakeReport(t, feedback, recommendations))
  }

  /**
   * `analyze_face` with the empty-summary case handled: the clear-skin
   * message and maintenance advice are reported instead of failing.
   */
  function AnalyzeFaceIntended(raw: Option<seq<Prediction>>): (r: Result<Report, HttpError>)
    ensures r.Failure? ==> r.error == HttpError(InternalServerError, PredictionMissingField)
    ensures r.Success? <==> forall p :: p in Filtered(raw) ==> WellFormed(p)
    ensures r.Success? && |Filtered(raw)| == 0 ==>
      r.value.skinScore == 100 && r.value.severity == Clear && r.value.averageConfidence == 0.0 &&
      r.value.feedback == ClearMessage && r.value.recommendations == ClearRecs
  {
    match Fold(Filtered(raw))
    case Failure(_) => Failure(HttpError(InternalServerError, PredictionMissingField))
    case Success(t) =>
      FoldSummary(Filtered(raw));
      match GenerateFeedbackMulti(t.summary)
      case Triple(_, feedback, recommendations) => Success(MakeReport(t, feedback, recommendations))
      case Pair(feedback, recommendations) => Success(MakeReport(t, feedback, recommendations))
  }

  /** A photo in which nothing but freckles is detected makes the request as written fail with HTTP 500. */
  lemma AsWrittenRejectsClearSkin(raw: Option<seq<Prediction>>)
    requires |Filtered(raw)| == 0
    ensures AnalyzeFace(raw) == Failure(HttpError(InternalServerError, TooManyValuesToUnpack))
  {
  }

  /** The smallest such input: a detector response with no predictions. */
  lemma NoPredictionsFails()
    ensures AnalyzeFace(Some([])).Failure?
    ensures AnalyzeFaceIntended(Some([])).Success?
  {
  }

  /** Whenever something is detected, the two versions agree. */
  lemma AgreeWhenDetected(raw: Option<seq<Prediction>>)
    requires |Filtered(raw)| > 0
    ensures AnalyzeFace(raw) == AnalyzeFaceIntended(raw)
  {
    if Fold(Filtered(raw)).Success? {
      FoldSummary(Filtered(raw));
    }
  }

  /**
   * What a successful report promises: a score in [30, 100], the severity
   * that score calls for, one detection per kept prediction, class counts
   * summing to that number, and at least three distinct recommendations
   * when something was detected.
   */
  lemma ReportInvariants(raw: Option<seq<Prediction>>)
    requires AnalyzeFaceIntended(raw).Success?
    ensures var rep := AnalyzeFaceIntended(raw).value;
      && MinScore <= rep.skinScore <= MaxScore
      && rep.severity == FromScore(rep.skinScore as real)
      && rep.acneCount == |Filtered(raw)| == Total(rep.summary)
      && DistinctKeys(rep.summary)
      && NoDuplicates(rep.recommendations)
      && (rep.acneCount > 0 ==> |rep.recommendations| >= 3)
      && rep.recommendations == (if rep.acneCount > 0 then Recommendations(rep.summary) else ClearRecs)
      && (rep.acneCount > 0 ==> rep.feedback == FeedbackText(rep.summary))
  {
    FoldSummary(Filtered(raw));
  }

  /** The report's summary is the fold's summary over the kept predictions. */
  lemma ReportSummary(raw: Option<seq<Prediction>>)
    requires AnalyzeFaceIntended(raw).Success?
    ensures Fold(Filtered(raw)).Success?
    ensures AnalyzeFaceIntended(raw).value.summary == Fold(Filtered(raw)).value.summary
  {
  }

  /** No excluded class reaches the summary: every counted class lower-cases to something other than a freckle. */
  lemma ExcludedNeverCounted(raw: Option<seq<Prediction>>, k: string)
    requires AnalyzeFaceIntended(raw).Success?
    requires Has(AnalyzeFaceIntended(raw).value.summary, k)
    ensures Text.Lower(k) != "freckles" && Text.Lower(k) != "freckle"
  {
    ReportSummary(raw);
    KeptClassesOnly(Filtered(raw), k);
  }

  lemma KeptClassesOnly(ps: seq<Prediction>, k: string)
    requires forall p :: p in ps ==> Kept(p)
    requires Fold(ps).Success? && Has(Fold(ps).value.summary, k)
    ensures Text.Lower(k) != "freckles" && Text.Lower(k) != "freckle"
  {
    FoldSummary(ps);
    var i :| 0 <= i < |ps| && ClassName(ps[i]) == k;
    assert ps[i] in ps;
    KeptClassName(ps[i]);
  }

  /** Three blackheads: penalty 12.8, score 87, severity clear. */
  lemma ThreeBlackheadsEndToEnd(b: Box, c: real)
    ensures var p := Prediction(Some("blackhead"), Some(b), Some(c));
      var r := AnalyzeFace(Some([p, p, p]));
      r.Success? && r.value.skinScore == 87 && r.value.severity == Clear && r.value.acneCount == 3
  {
    var p := Prediction(Some("blackhead"), Some(b), Some(c));
    ThreeBlackheadsKept(p);
    ThreeBlackheadsFold(b, c);
    ThreeBlackheads();
    ReportScore(Some([p, p, p]));
  }

  /** A successful report's score and count come from the fold over the kept predictions. */
  lemma ReportScore(raw: Option<seq<Prediction>>)
    requires AnalyzeFace(raw).Success?
    ensures Fold(Filtered(raw)).Success?
    ensures AnalyzeFace(raw).value.skinScore == SkinScore(Fold(Filtered(raw)).value.summary)
    ensures AnalyzeFace(raw).value.acneCount == |Filtered(raw)|
    ensures AnalyzeFace(raw).value.severity == FromScore(AnalyzeFace(raw).value.skinScore as real)
  {
  }

  lemma ThreeBlackheadsKept(p: Prediction)
    requires p.cls == Some("blackhead")
    ensures FilterPredictions([p, p, p]) == [p, p, p]
  {
    assert Text.Lower("blackhead") == "blackhead";
    assert Kept(p);
    assert FilterPredictions([p]) == [p];
    assert [p, p][1..] == [p];
    assert FilterPredictions([p, p]) == [p, p];
    assert [p, p, p][1..] == [p, p];
  }

  lemma ThreeBlackheadsFold(b: Box, c: real)
    ensures var p := Prediction(Some("blackhead"), Some(b), Some(c));
      Fold([p, p, p]).Success? && Fold([p, p, p]).value.summary == [Entry("blackhead", 3)]
  {
    ThreeFold(Prediction(Some("blackhead"), Some(b), Some(c)));
  }

  lemma ThreeFold(p: Prediction)
    requires WellFormed(p)
    ensures Fold([p, p, p]).Success? && Fold([p, p, p]).value.summary == [Entry(ClassName(p), 3)]
  {
    var ps := [p, p, p];
    assert forall i :: 0 <= i < |ps| ==> WellFormed(ps[i]);
    FoldTotals(ps);
    ClassNamesThree(p);
    SummarizeThree(ClassName(p));
  }

  lemma ClassNamesThree(p: Prediction)
    ensures ClassNames([p, p, p]) == [ClassName(p), ClassName(p), ClassName(p)]
  {
  }

  lemma SummarizeThree(n: string)
    ensures Summarize([n, n, n]) == [Entry(n, 3)]
  {
    assert [n, n, n][..2] == [n, n] && [n, n][..1] == [n];
    assert Summarize([n]) == [Entry(n, 1)];
    assert Summarize([n, n]) == [Entry(n, 2)];
  }

  /** The row stored for a signed-in user; JSON serialisation is outside this model. */
  function ToRecord(rep: Report, id: int, userId: int, imagePath: string, createdAt: int,
                    summaryJson: string, recommendationsJson: string): (r: AnalysisRecord)
    ensures r.score.Some? && r.severity.Some? && r.acneCount == Some(rep.acneCount)
    ensures r.score == Some(rep.skinScore as real) && r.severity == Some(Name(rep.severity))
    ensures r.feedback == Some(rep.feedback) && r.userId == Some(userId)
    ensures rep.severity == FromScore(rep.skinScore as real) ==> r.severity.value == Name(FromScore(r.score.value))
  {
    AnalysisRecord(id, Some(userId), Some(rep.acneCount), Some(Name(rep.severity)), Some(rep.skinScore as real),
                   Some(imagePath), None, Some(createdAt), Some(summaryJson), Some(rep.feedback),
                   Some(recommendationsJson))
  }
}

=== FILE: detections.dfy ===
/**
 * The detector's predictions inside `analyze_face`: the freckle exclusion
 * filter and the loop that turns predictions into detections, a confidence
 * total and the per-class summary.
 */
module Detections {
  import opened Wrappers
  import opened Summaries
  import Text

  datatype Box = Box(x: real, y: real, width: real, height: real)

  /**
   * One raw prediction dictionary. Each key may be missing: the filter reads
   * "class" with a default, the fold reads the box and "confidence" with
   * `prediction[...]`, which raises when the key is absent.
   */
  datatype Prediction = Prediction(cls: Option<string>, box: Option<Box>, confidence: Option<real>)

  /** An `AcneDetection`. */
  datatype Detection = Detection(box: Box, confidence: real, className: string)

  /** The `KeyError` raised when a prediction lacks a box coordinate or its confidence. */
  datatype FoldError = MissingField

  /** `EXCLUDED_CLASSES`; it is tested against the lower-cased class. */
  const ExcludedClasses: set<string> := {"freckles", "freckle", "Freckles", "Freckle"}

  /** `pred.get("class", "").lower()`. */
  function FilterKey(p: Prediction): string {
    Text.Lower(p.cls.GetOr(""))
  }

  predicate Kept(p: Prediction) {
    FilterKey(p) !in ExcludedClasses
  }

  /** The capitalised entries of the exclusion set can never match a lower-cased class. */
  lemma CapitalisedEntriesInert(s: string)
    ensures Text.Lower(s) != "Freckles" && Text.Lower(s) != "Freckle"
  {
    Text.LowerNeverHasUpper(s, "Freckles", 0);
    Text.LowerNeverHasUpper(s, "Freckle", 0);
  }

  /** A prediction is kept exactly when its lower-cased class is neither "freckles" nor "freckle". */
  lemma KeptIff(p: Prediction)
    ensures Kept(p) <==> FilterKey(p) != "freckles" && FilterKey(p) != "freckle"
    ensures p.cls.None? ==> Kept(p)
  {
    CapitalisedEntriesInert(p.cls.GetOr(""));
  }

  /** A freckle class in any capitalisation is dropped: the test lower-cases it first. */
  lemma CapitalisedFrecklesExcluded(b: Option<Box>, c: Option<real>)
    ensures !Kept(Prediction(Some("Freckles"), b, c))
    ensures !Kept(Prediction(Some("FRECKLE"), b, c))
  {
    assert Text.Lower("Freckles") == "freckles";
    assert Text.Lower("FRECKLE") == "freckle";
  }

  /** The class a kept prediction is counted under is never a freckle class. */
  lemma KeptClassName(p: Prediction)
    requires Kept(p)
    ensures Text.Lower(ClassName(p)) != "freckles" && Text.Lower(ClassName(p)) != "freckle"
  {
    KeptIff(p);
  }

  /** The filtering list comprehension. */
  function FilterPredictions(ps: seq<Prediction>): (r: seq<Prediction>)
    ensures |r| <= |ps|
    ensures forall p :: p in r <==> p in ps && Kept(p)
  {
    if |ps| == 0 then []
    else if Kept(ps[0]) then [ps[0]] + FilterPredictions(ps[1..])
    else FilterPredictions(ps[1..])
  }

  /** Filtering distributes over concatenation, so kept predictions stay in their original order. */
  lemma {:induction false} FilterAppend(a: seq<Prediction>, b: seq<Prediction>)
    ensures FilterPredictions(a + b) == FilterPredictions(a) + FilterPredictions(b)
  {
    if |a| == 0 {
      assert a + b == b;
    } else {
      assert (a + b)[0] == a[0];
      assert (a + b)[1..] == a[1..] + b;
      FilterAppend(a[1..], b);
    }
  }

  /** Filtering an already filtered list changes nothing. */
  lemma {:induction false} FilterIdempotent(ps: seq<Prediction>)
    ensures FilterPredictions(FilterPredictions(ps)) == FilterPredictions(ps)
  {
    if |ps| > 0 {
      FilterIdempotent(ps[1..]);
    }
  }

  /** Each prediction is kept as often as it occurs, or dropped entirely. */
  lemma {:induction false} FilterMultiplicity(ps: seq<Prediction>, p: Prediction)
    ensures multiset(FilterPredictions(ps))[p] == if Kept(p) then multiset(ps)[p] else 0
  {
    if |ps| > 0 {
      FilterMultiplicity(ps[1..], p);
      assert ps == [ps[0]] + ps[1..];
    }
  }

  /** `prediction.get("class", "unknown")`: the class a detection is counted under. */
  function ClassName(p: Prediction): (r: string)
    ensures p.cls.Some? ==> r == p.cls.value
    ensures p.cls.None? ==> r == "unknown"
  {
    p.cls.GetOr("unknown")
  }

  predicate WellFormed(p: Prediction) {
    p.box.Some? && p.confidence.Some?
  }

  /** Building the `AcneDetection`. */
  function ToDetection(p: Prediction): (r: Result<Detection, FoldError>)
    ensures r.Success? <==> WellFormed(p)
    ensures r.Success? ==> r.value.className == ClassName(p) && r.value.confidence == p.confidence.value
    ensures r.Success? ==> r.value.box == p.box.value
  {
    if p.box.None? || p.confidence.None? then Failure(MissingField)
    else Success(Detection(p.box.value, p.confidence.value, ClassName(p)))
  }

  function ClassNames(ps: seq<Prediction>): (r: seq<string>)
    ensures |r| == |ps|
    ensures forall i :: 0 <= i < |ps| ==> r[i] == ClassName(ps[i])
  {
    if |ps| == 0 then [] else ClassNames(ps[..|ps| - 1]) + [ClassName(ps[|ps| - 1])]
  }

  function SumConfidence(ds: seq<Detection>): real {
    if |ds| == 0 then 0.0 else SumConfidence(ds[..|ds| - 1]) + ds[|ds| - 1].confidence
  }

  /** What the loop over the filtered predictions accumulates. */
  datatype Tally = Tally(detections: seq<Detection>, totalConfidence: real, summary: Summary)

  /**
   * The loop of `analyze_face` over the filtered predictions. It fails on
   * the first prediction missing a field; otherwise there is one detection
   * per prediction, carrying that prediction's box, class and confidence.
   */
  function Fold(ps: seq<Prediction>): (r: Result<Tally, FoldError>)
    ensures r.Success? <==> forall i :: 0 <= i < |ps| ==> WellFormed(ps[i])
    ensures r.Success? ==> |r.value.detections| == |ps|
    ensures r.Success? ==> forall i :: 0 <= i < |ps| ==>
      r.value.detections[i] == Detection(ps[i].box.value, ps[i].confidence.value, ClassName(ps[i]))
  {
    if |ps| == 0 then Success(Tally([], 0.0, []))
    else
      var init := ps[..|ps| - 1];
      assert forall i :: 0 <= i < |init| ==> init[i] == ps[i];
      match Fold(init)
      case Failure(e) => Failure(e)
      case Success(acc) =>
        match ToDetection(ps[|ps| - 1])
        case Failure(e) => Failure(e)
        case Success(d) =>
          var ds := acc.detections + [d];
          assert forall i :: 0 <= i < |init| ==> ds[i] == acc.detections[i];
          Success(Tally(ds, acc.totalConfidence + d.confidence, Add(acc.summary, d.className)))
  }

  /** The running totals: the confidences are summed and the summary is the class count of the predictions. */
  lemma {:induction false} FoldTotals(ps: seq<Prediction>)
    requires Fold(ps).Success?
    ensures Fold(ps).value.totalConfidence == SumConfidence(Fold(ps).value.detections)
    ensures Fold(ps).value.summary == Summarize(ClassNames(ps))
  {
    if |ps| > 0 {
      var init := ps[..|ps| - 1];
      FoldTotals(init);
      var ds := Fold(ps).value.detections;
      assert ds[..|ps| - 1] == Fold(init).value.detections;
      assert ClassNames(ps)[..|ps| - 1] == ClassNames(init);
    }
  }

  /** The summary of a successful fold: counts per class, their sum, and nothing else. */
  lemma FoldSummary(ps: seq<Prediction>)
    requires Fold(ps).Success?
    ensures DistinctKeys(Fold(ps).value.summary)
    ensures Total(Fold(ps).value.summary) == |ps|
    ensures forall k :: Count(Fold(ps).value.summary, k) == multiset(ClassNames(ps))[k]
    ensures forall k :: Has(Fold(ps).value.summary, k) <==> exists i :: 0 <= i < |ps| && ClassName(ps[i]) == k
  {
    var names := ClassNames(ps);
    FoldTotals(ps);
    SummarizeCounts(names);
  }

  /** `total_confidence / total_concerns if total_concerns > 0 else 0`. */
  function AverageConfidence(t: Tally): (r: real)
    ensures |t.detections| == 0 ==> r == 0.0
    ensures |t.detections| > 0 ==> r * |t.detections| as real == t.totalConfidence
  {
    if |t.detections| > 0 then t.totalConfidence / |t.detections| as real else 0.0
  }

  predicate ConfidencesInUnit(ds: seq<Detection>) {
    forall i :: 0 <= i < |ds| ==> 0.0 <= ds[i].confidence <= 1.0
  }

  lemma {:induction false} SumConfidenceBounds(ds: seq<Detection>)
    requires ConfidencesInUnit(ds)
    ensures 0.0 <= SumConfidence(ds) <= |ds| as real
  {
    if |ds| > 0 {
      SumConfidenceBounds(ds[..|ds| - 1]);
    }
  }

  /** With confidences in [0, 1] the average is in [0, 1]; with no detections it is 0. */
  lemma AverageConfidenceBounds(t: Tally)
    requires t.totalConfidence == SumConfidence(t.detections)
    requires ConfidencesInUnit(t.detections)
    ensures 0.0 <= AverageConfidence(t) <= 1.0
    ensures |t.detections| == 0 ==> AverageConfidence(t) == 0.0
  {
    SumConfidenceBounds(t.detections);
    if |t.detections| > 0 {
      var n := |t.detections| as real;
      assert t.totalConfidence <= n;
      assert t.totalConfidence / n <= n / n;
    }
  }
}

=== FILE: feedback.dfy ===
/**
 * `generate_feedback_multi` and the legacy `generate_feedback`: the report
 * text and the ordered, de-duplicated recommendation list.
 */
module Feedback {
  import opened Summaries
  import opened Severities
  import Text

  const ClearMessage := "Great news! No skin concerns detected. Your skin looks healthy!"

  const ClearRecs: seq<string> := [
    "Maintain your current skincare routine",
    "Continue using sunscreen daily (SPF 30+)",
    "Stay hydrated and get adequate sleep",
    "Cleanse gently twice daily"
  ]

  const BreakoutRecs: seq<string> := [
    "Use a gentle cleanser with salicylic acid (2%) or benzoyl peroxide (2.5-5%)",
    "Apply spot treatment to active breakouts",
    "Avoid touching or picking at your face",
    "Change pillowcases regularly"
  ]

  const ReferralRec := "Consider consulting a dermatologist for prescription treatments (this may require professional care)"

  const BlackheadRecs: seq<string> := [
    "Use a BHA (salicylic acid) exfoliant 2-3 times per week",
    "Try oil cleansing to help dissolve sebum",
    "Consider professional extractions for stubborn blackheads"
  ]

  const WhiteheadRecs: seq<string> := [
    "Use products with salicylic acid to unclog pores",
    "Avoid heavy, pore-clogging moisturizers",
    "Don't squeeze whiteheads - let them heal naturally"
  ]

  const ScarRecs: seq<string> := [
    "Apply vitamin C serum to help fade scarring",
    "Use products with niacinamide for skin repair",
    "Always wear SPF 30+ to prevent darkening of scars",
    "Consider professional treatments (microneedling, laser) for severe scarring"
  ]

  const MiliumRec := "Milia may require professional extraction - avoid trying to remove them yourself"

  const GeneralRecs: seq<string> := [
    "Maintain a consistent skincare routine",
    "Avoid harsh scrubbing or over-exfoliation",
    "Keep hair and hands away from your face"
  ]

  /** Number of condition-keyed blocks; block 6 is the general advice. */
  const ConditionBlocks: nat := 6
  const GeneralBlock: nat := 6

  /** The recommendation blocks in the order the function tries them. */
  function Block(k: nat): seq<string>
    requires k <= GeneralBlock
  {
    if k == 0 then BreakoutRecs
    else if k == 1 then [ReferralRec]
    else if k == 2 then BlackheadRecs
    else if k == 3 then WhiteheadRecs
    else if k == 4 then ScarRecs
    else if k == 5 then [MiliumRec]
    else GeneralRecs
  }

  /** `any(key in detection_summary for key in keys)`. */
  predicate HasAny(s: Summary, keys: seq<string>) {
    exists k :: k in keys && Has(s, k)
  }

  predicate BreakoutTriggered(s: Summary) {
    HasAny(s, ["cystic", "purulent", "Acne", "conglobata", "Pimples"])
  }

  /** The dermatologist referral: a severe-acne class present and more than three cystic plus purulent. */
  predicate ReferralTriggered(s: Summary) {
    HasAny(s, ["cystic", "purulent", "conglobata"]) && Count(s, "cystic") + Count(s, "purulent") > 3
  }

  /** Whether condition block `k` fires for summary `s`. */
  predicate Triggered(s: Summary, k: nat)
    requires k < ConditionBlocks
  {
    if k == 0 then BreakoutTriggered(s)
    else if k == 1 then ReferralTriggered(s)
    else if k == 2 then Has(s, "blackhead")
    else if k == 3 then Has(s, "whitehead")
    else if k == 4 then Has(s, "acne_scars")
    else Has(s, "milium")
  }

  predicate NoDuplicates(xs: seq<string>) {
    forall i, j :: 0 <= i < j < |xs| ==> xs[i] != xs[j]
  }

  /**
   * The `for rec in recs: if rec not in seen_recommendations: ...` loop.
   * The seen-set always holds exactly the recommendations collected so far,
   * so membership in `acc` stands for membership in the seen-set.
   */
  function AppendNew(acc: seq<string>, block: seq<string>): (r: seq<string>)
    ensures NoDuplicates(acc) ==> NoDuplicates(r)
    ensures |acc| <= |r| <= |acc| + |block|
    ensures r[..|acc|] == acc
    ensures forall x {:trigger x in r} :: x in r <==> x in acc || x in block
    decreases |block|
  {
    if |block| == 0 then acc
    else AppendNew(if block[0] in acc then acc else acc + [block[0]], block[1..])
  }

  /** One `if <condition>: for rec in recs: ...` step: block `k` is merged in when it fires. */
  function ApplyBlock(s: Summary, k: nat, acc: seq<string>): seq<string>
    requires k < ConditionBlocks
  {
    if Triggered(s, k) then AppendNew(acc, Block(k)) else acc
  }

  /** The first `n` condition-keyed blocks, tried in the order of the source. */
  function CollectedUpTo(s: Summary, n: nat): seq<string>
    requires n <= ConditionBlocks
  {
    if n == 0 then [] else ApplyBlock(s, n - 1, CollectedUpTo(s, n - 1))
  }

  /** All lines collected before the general-advice fill. */
  function Collected(s: Summary): seq<string>
  {
    CollectedUpTo(s, ConditionBlocks)
  }

  /** The general-advice loop: each general line not yet present is added while fewer than five are listed. */
  function FillGeneral(acc: seq<string>, general: seq<string>): (r: seq<string>)
    ensures NoDuplicates(acc) ==> NoDuplicates(r)
    ensures |acc| <= |r| && r[..|acc|] == acc
    ensures |r| <= if |acc| < 5 then 5 else |acc|
    ensures forall x {:trigger x in r} :: x in r ==> x in acc || x in general
    decreases |general|
  {
    if |general| == 0 then acc
    else FillGeneral(if general[0] !in acc && |acc| < 5 then acc + [general[0]] else acc, general[1..])
  }

  /** The recommendation list of a non-empty summary. */
  function Recommendations(s: Summary): (r: seq<string>)
    ensures NoDuplicates(r)
    ensures |Collected(s)| <= |r| && r[..|Collected(s)|] == Collected(s)
    ensures forall x :: x in r ==> x in Collected(s) || x in GeneralRecs
    ensures |r| <= 5 || r == Collected(s)
  {
    var c := Collected(s);
    CollectedNoDuplicates(s, ConditionBlocks);
    if |c| < 3 then FillGeneral(c, GeneralRecs) else c
  }

  lemma {:induction false} CollectedNoDuplicates(s: Summary, n: nat)
    requires n <= ConditionBlocks
    ensures NoDuplicates(CollectedUpTo(s, n))
  {
    if n > 0 {
      var prev := CollectedUpTo(s, n - 1);
      CollectedNoDuplicates(s, n - 1);
      ApplyBlockNoDuplicates(s, n - 1, prev);
      assert CollectedUpTo(s, n) == ApplyBlock(s, n - 1, prev);
    }
  }

  lemma ApplyBlockNoDuplicates(s: Summary, k: nat, acc: seq<string>)
    requires k < ConditionBlocks && NoDuplicates(acc)
    ensures NoDuplicates(ApplyBlock(s, k, acc))
  {
    if Triggered(s, k) {
      assert ApplyBlock(s, k, acc) == AppendNew(acc, Block(k));
    }
  }

  /**
   * One condition block keeps the lines collected so far as a prefix, adds
   * nothing when its condition is false, leaves every line of the block
   * present when it is true, and never introduces a duplicate.
   */
  lemma ApplyBlockShape(s: Summary, k: nat, acc: seq<string>)
    requires k < ConditionBlocks
    ensures |acc| <= |ApplyBlock(s, k, acc)| && ApplyBlock(s, k, acc)[..|acc|] == acc
    ensures !Triggered(s, k) ==> ApplyBlock(s, k, acc) == acc
    ensures Triggered(s, k) ==> forall x :: x in Block(k) ==> x in ApplyBlock(s, k, acc)
    ensures NoDuplicates(acc) ==> NoDuplicates(ApplyBlock(s, k, acc))
  {
    if Triggered(s, k) {
      assert ApplyBlock(s, k, acc) == AppendNew(acc, Block(k));
    }
  }

  /** "<count> <Readable Name>" for one summary entry. */
  function Concern(e: Entry): (r: string)
    ensures var d := Text.NatToString(e.count);
      |r| == |d| + 1 + |e.name| && r[..|d|] == d && Text.ParseDigits(r[..|d|]) == e.count && r[|d|] == ' '
    ensures '_' !in r
    ensures r[|Text.NatToString(e.count)| + 1..] == Text.Title(Text.SpaceUnderscores(e.name))
  {
    Text.NatToStringRoundTrip(e.count);
    Text.NatToString(e.count) + " " + Text.Title(Text.SpaceUnderscores(e.name))
  }

  /** "Analysis detected: ...", the concerns joined by commas in summary order. */
  function FeedbackText(s: Summary): (r: string)
    ensures |r| >= 20 && r[..19] == "Analysis detected: " && r[|r| - 1] == '.'
  {
    "Analysis detected: " + Text.Join(", ", seq(|s|, i requires 0 <= i < |s| => Concern(s[i]))) + "."
  }

  /** Classes are listed in summary order, separated by commas. */
  lemma FeedbackTextPair(a: Entry, b: Entry)
    ensures FeedbackText([a, b]) == "Analysis detected: " + Concern(a) + ", " + Concern(b) + "."
  {
    var s := [a, b];
    var parts := seq(|s|, i requires 0 <= i < |s| => Concern(s[i]));
    assert parts == [Concern(a), Concern(b)];
    assert Text.Join(", ", parts) == Concern(a) + ", " + Text.Join(", ", parts[1..]);
  }

  /** A count is printed in decimal and a class name plainly capitalised. */
  lemma ConcernBlackheads()
    ensures Concern(Entry("blackhead", 3)) == "3 Blackhead"
  {
    BlackheadName();
  }

  lemma BlackheadName()
    ensures Text.Title(Text.SpaceUnderscores("blackhead")) == "Blackhead"
  {
    assert Text.SpaceUnderscores("blackhead") == "blackhead";
    assert Text.Title("blackhead") == "Blackhead";
  }

  /** Underscores become spaces and each word is capitalised. */
  lemma ConcernAcneScars()
    ensures Concern(Entry("acne_scars", 12)) == "12 Acne Scars"
  {
    var e := Entry("acne_scars", 12);
    AcneScarsName();
    assert Text.NatToString(12) == "12";
    ConcernParts(e, "12", "Acne Scars");
  }

  lemma ConcernParts(e: Entry, digits: string, name: string)
    requires Text.NatToString(e.count) == digits
    requires Text.Title(Text.SpaceUnderscores(e.name)) == name
    ensures Concern(e) == digits + " " + name
  {
  }

  lemma AcneScarsName()
    ensures Text.Title(Text.SpaceUnderscores("acne_scars")) == "Acne Scars"
  {
    assert Text.SpaceUnderscores("acne_scars") == "acne scars";
    assert Text.Title("acne scars") == "Acne Scars";
  }

  /**
   * The two shapes `generate_feedback_multi` returns: a triple
   * (severity, feedback, recommendations) when there is nothing to report,
   * and a pair (feedback, recommendations) otherwise.
   */
  datatype FeedbackResult =
    | Triple(severity: string, feedback: string, recommendations: seq<string>)
    | Pair(feedback: string, recommendations: seq<string>)

  /** `generate_feedback_multi(detection_summary, avg_confidence)`; the confidence is not used. */
  function GenerateFeedbackMulti(s: Summary): (r: FeedbackResult)
    ensures r.Triple? <==> Total(s) == 0
    ensures r.Triple? ==> r.severity == Name(Clear) && r.recommendations == ClearRecs
    ensures r.Pair? ==> NoDuplicates(r.recommendations) && |r.recommendations| >= 3
    ensures r.Pair? ==> r.feedback == FeedbackText(s) && r.recommendations == Recommendations(s)
  {
    if Total(s) == 0 then Triple("clear", ClearMessage, ClearRecs)
    else
      RecommendationsAtLeastThree(s);
      Pair(FeedbackText(s), Recommendations(s))
  }

  lemma RecommendationsAtLeastThree(s: Summary)
    ensures |Recommendations(s)| >= 3
  {
    RecommendationsShape(s);
  }

  /** The block a recommendation string belongs to; 7 for a string of no block. */
  function RankOf(x: string): nat {
    if x in BreakoutRecs then 0
    else if x == ReferralRec then 1
    else if x in BlackheadRecs then 2
    else if x in WhiteheadRecs then 3
    else if x in ScarRecs then 4
    else if x == MiliumRec then 5
    else if x in GeneralRecs then 6
    else 7
  }

  /** Every block's strings are distinct and belong to that block alone. */
  lemma BlockRanks(k: nat)
    requires k <= GeneralBlock
    ensures NoDuplicates(Block(k))
    ensures forall x :: x in Block(k) ==> RankOf(x) == k
  {
    if k == 0 { BreakoutRanks(); }
    else if k == 1 { SingleRank(ReferralRec, 1); }
    else if k == 2 { BlackheadRanks(); }
    else if k == 3 { WhiteheadRanks(); }
    else if k == 4 { ScarRanks(); }
    else if k == 5 { SingleRank(MiliumRec, 5); }
    else { GeneralRanks(); }
  }

  lemma SingleRank(x: string, k: nat)
    requires k <= GeneralBlock && Block(k) == [x] && RankOf(x) == k
    ensures NoDuplicates(Block(k))
    ensures forall y :: y in Block(k) ==> RankOf(y) == k
  {
  }

  lemma BreakoutRanks()
    ensures NoDuplicates(BreakoutRecs)
    ensures forall x :: x in BreakoutRecs ==> RankOf(x) == 0
  {
  }

  lemma BlackheadRanks()
    ensures NoDuplicates(BlackheadRecs)
    ensures forall x :: x in BlackheadRecs ==> RankOf(x) == 2
  {
  }

  lemma WhiteheadRanks()
    ensures NoDuplicates(WhiteheadRecs)
    ensures forall x :: x in WhiteheadRecs ==> RankOf(x) == 3
  {
  }

  lemma ScarRanks()
    ensures NoDuplicates(ScarRecs)
    ensures forall x :: x in ScarRecs ==> RankOf(x) == 4
  {
  }

  lemma GeneralRanks()
    ensures NoDuplicates(GeneralRecs)
    ensures forall x :: x in GeneralRecs ==> RankOf(x) == 6
  {
  }

  /** The blocks of the first `n` conditions that fire, concatenated: the list without any de-duplication. */
  function Expected(s: Summary, n: nat): seq<string>
    requires n <= ConditionBlocks
  {
    if n == 0 then []
    else Expected(s, n - 1) + (if Triggered(s, n - 1) then Block(n - 1) else [])
  }

  lemma ExpectedRanks(s: Summary, n: nat)
    requires n <= ConditionBlocks
    ensures forall x :: x in Expected(s, n) ==> RankOf(x) < n
    ensures NoDuplicates(Expected(s, n))
    ensures forall i, j :: 0 <= i < j < |Expected(s, n)| ==> RankOf(Expected(s, n)[i]) <= RankOf(Expected(s, n)[j])
  {
    ExpectedRankBound(s, n);
    ExpectedDistinct(s, n);
    ExpectedOrdered(s, n);
  }

  lemma {:induction false} ExpectedRankBound(s: Summary, n: nat)
    requires n <= ConditionBlocks
    ensures forall x :: x in Expected(s, n) ==> RankOf(x) < n
  {
    if n > 0 {
      ExpectedRankBound(s, n - 1);
      BlockRanks(n - 1);
    }
  }

  lemma {:induction false} ExpectedDistinct(s: Summary, n: nat)
    requires n <= ConditionBlocks
    ensures NoDuplicates(Expected(s, n))
  {
    if n > 0 {
      ExpectedDistinct(s, n - 1);
      ExpectedRankBound(s, n - 1);
      BlockRanks(n - 1);
      var tail := if Triggered(s, n - 1) then Block(n - 1) else [];
      assert Expected(s, n) == Expected(s, n - 1) + tail;
      ConcatNoDuplicates(Expected(s, n - 1), tail);
    }
  }

  lemma {:induction false} ExpectedOrdered(s: Summary, n: nat)
    requires n <= ConditionBlocks
    ensures InBlockOrder(Expected(s, n))
  {
    if n > 0 {
      ExpectedOrdered(s, n - 1);
      ExpectedOrderedStep(s, n);
    }
  }

  lemma ExpectedOrderedStep(s: Summary, n: nat)
    requires 0 < n <= ConditionBlocks
    requires InBlockOrder(Expected(s, n - 1))
    ensures InBlockOrder(Expected(s, n))
  {
    ExpectedRankBound(s, n - 1);
    BlockRanks(n - 1);
    var tail := if Triggered(s, n - 1) then Block(n - 1) else [];
    assert Expected(s, n) == Expected(s, n - 1) + tail;
    ExtendOrder(Expected(s, n - 1), tail, n - 1);
  }

  /** Lines of rank `k` after lines of lower rank keep the block order. */
  lemma ExtendOrder(a: seq<string>, b: seq<string>, k: nat)
    requires InBlockOrder(a)
    requires forall x :: x in a ==> RankOf(x) < k
    requires forall x :: x in b ==> RankOf(x) == k
    ensures InBlockOrder(a + b)
  {
    forall i, j | 0 <= i < j < |b|
      ensures RankOf(b[i]) <= RankOf(b[j])
    {
      assert b[i] in b && b[j] in b;
    }
    ConcatInBlockOrder(a, b, k);
  }

  lemma ConcatNoDuplicates(a: seq<string>, b: seq<string>)
    requires NoDuplicates(a) && NoDuplicates(b)
    requires forall x :: x in a ==> x !in b
    ensures NoDuplicates(a + b)
  {
    var c := a + b;
    forall i, j | 0 <= i < j < |c|
      ensures c[i] != c[j]
    {
      if j < |a| {
        assert c[i] == a[i] && c[j] == a[j];
      } else if i >= |a| {
        assert c[i] == b[i - |a|] && c[j] == b[j - |a|];
      } else {
        assert c[i] == a[i] && c[j] == b[j - |a|];
        assert c[i] in a && c[j] in b;
      }
    }
  }

  lemma NoDuplicatesTail(xs: seq<string>)
    requires |xs| > 0 && NoDuplicates(xs)
    ensures NoDuplicates(xs[1..]) && xs[0] !in xs[1..]
  {
    assert forall i :: 0 <= i < |xs[1..]| ==> xs[1..][i] == xs[i + 1];
  }

  /** A block none of whose lines is present yet is appended whole. */
  lemma {:induction false} AppendNewFresh(acc: seq<string>, block: seq<string>)
    requires NoDuplicates(block)
    requires forall x :: x in block ==> x !in acc
    ensures AppendNew(acc, block) == acc + block
    decreases |block|
  {
    if |block| > 0 {
      NoDuplicatesTail(block);
      AppendNewFresh(acc + [block[0]], block[1..]);
      assert acc + [block[0]] + block[1..] == acc + block;
    }
  }

  lemma {:induction false} FillGeneralFresh(acc: seq<string>, general: seq<string>)
    requires NoDuplicates(general)
    requires forall x :: x in general ==> x !in acc
    requires |acc| + |general| <= 5
    ensures FillGeneral(acc, general) == acc + general
    decreases |general|
  {
    if |general| > 0 {
      NoDuplicatesTail(general);
      FillGeneralFresh(acc + [general[0]], general[1..]);
      assert acc + [general[0]] + general[1..] == acc + general;
    }
  }

  lemma ExtendExpected(s: Summary, n: nat, acc: seq<string>)
    requires n < ConditionBlocks
    requires acc == Expected(s, n)
    ensures ApplyBlock(s, n, acc) == Expected(s, n + 1)
  {
    ExpectedRanks(s, n);
    BlockRanks(n);
    if Triggered(s, n) {
      AppendNewFresh(acc, Block(n));
    }
  }

  /** The de-duplication never drops a line: the blocks share no strings. */
  lemma {:induction false} CollectedIsExpected(s: Summary, n: nat)
    requires n <= ConditionBlocks
    ensures CollectedUpTo(s, n) == Expected(s, n)
  {
    if n > 0 {
      CollectedIsExpected(s, n - 1);
      ExtendExpected(s, n - 1, Expected(s, n - 1));
      assert CollectedUpTo(s, n) == ApplyBlock(s, n - 1, CollectedUpTo(s, n - 1));
    }
  }

  /**
   * The list is exactly the fired blocks in order, followed by all of the
   * general advice when fewer than three lines were collected.
   */
  lemma RecommendationsShape(s: Summary)
    ensures Collected(s) == Expected(s, ConditionBlocks)
    ensures |Collected(s)| < 3 ==> Recommendations(s) == Collected(s) + GeneralRecs
    ensures |Collected(s)| >= 3 ==> Recommendations(s) == Collected(s)
  {
    CollectedIsExpected(s, ConditionBlocks);
    var c := Collected(s);
    if |c| < 3 {
      GeneralIsFresh(s);
      FillGeneralFresh(c, GeneralRecs);
    }
  }

  lemma GeneralIsFresh(s: Summary)
    ensures NoDuplicates(GeneralRecs)
    ensures forall x :: x in GeneralRecs ==> x !in Collected(s)
  {
    CollectedIsExpected(s, ConditionBlocks);
    BlockRanks(GeneralBlock);
    GeneralNotExpected(s, ConditionBlocks);
  }

  lemma GeneralNotExpected(s: Summary, n: nat)
    requires n <= ConditionBlocks
    ensures forall x :: x in GeneralRecs ==> x !in Expected(s, n)
  {
    ExpectedRanks(s, n);
    BlockRanks(GeneralBlock);
  }

  lemma {:induction false} ExpectedMembership(s: Summary, n: nat, k: nat, x: string)
    requires k < n <= ConditionBlocks
    requires x in Block(k)
    ensures x in Expected(s, n) <==> Triggered(s, k)
  {
    BlockRanks(k);
    var prev := Expected(s, n - 1);
    var tail := if Triggered(s, n - 1) then Block(n - 1) else [];
    ExpectedStep(s, n);
    if k == n - 1 {
      ExpectedRanks(s, n - 1);
      assert x !in prev;
    } else {
      BlockRanks(n - 1);
      assert x !in tail;
      ExpectedMembership(s, n - 1, k, x);
    }
  }

  /** Ranks never decrease along `xs`. */
  predicate InBlockOrder(xs: seq<string>) {
    forall i, j :: 0 <= i < j < |xs| ==> RankOf(xs[i]) <= RankOf(xs[j])
  }

  lemma ConcatInBlockOrder(a: seq<string>, b: seq<string>, k: nat)
    requires InBlockOrder(a) && InBlockOrder(b)
    requires forall x :: x in a ==> RankOf(x) < k
    requires forall x :: x in b ==> RankOf(x) == k
    ensures InBlockOrder(a + b)
  {
    var c := a + b;
    forall i, j | 0 <= i < j < |c|
      ensures RankOf(c[i]) <= RankOf(c[j])
    {
      if j < |a| {
        assert c[i] == a[i] && c[j] == a[j];
      } else if i >= |a| {
        assert c[i] == b[i - |a|] && c[j] == b[j - |a|];
      } else {
        assert c[i] == a[i] && c[j] == b[j - |a|];
        assert c[i] in a && c[j] in b;
      }
    }
  }

  /** Appending the general advice after condition lines keeps block order. */
  lemma AppendGeneralInOrder(e: seq<string>)
    requires InBlockOrder(e)
    requires forall x :: x in e ==> RankOf(x) < GeneralBlock
    ensures InBlockOrder(e + GeneralRecs)
    ensures forall x :: x in e + GeneralRecs ==> RankOf(x) <= GeneralBlock
  {
    BlockRanks(GeneralBlock);
    ConcatInBlockOrder(e, GeneralRecs, GeneralBlock);
  }

  /** Recommendations appear in block order: breakout, referral, blackhead, whitehead, scars, milium, general. */
  lemma RecommendationsOrdered(s: Summary)
    ensures InBlockOrder(Recommendations(s))
    ensures forall x :: x in Recommendations(s) ==> RankOf(x) <= GeneralBlock
  {
    var e := Expected(s, ConditionBlocks);
    RecommendationsShape(s);
    ExpectedRanks(s, ConditionBlocks);
    if |e| < 3 {
      AppendGeneralInOrder(e);
    }
  }

  /** No condition block shares a line with the general advice. */
  lemma NotGeneral(k: nat, x: string)
    requires k < ConditionBlocks && x in Block(k)
    ensures x !in GeneralRecs
  {
    BlockRanks(k);
    BlockRanks(GeneralBlock);
  }

  /** A condition block's line is recommended exactly when that block's condition holds. */
  lemma BlockMembership(s: Summary, k: nat, x: string)
    requires k < ConditionBlocks && x in Block(k)
    ensures x in Recommendations(s) <==> Triggered(s, k)
  {
    RecommendationsShape(s);
    ExpectedMembership(s, ConditionBlocks, k, x);
    NotGeneral(k, x);
  }

  /** The dermatologist referral is given exactly when a severe class is present and cystic plus purulent exceeds three. */
  lemma ReferralIff(s: Summary)
    ensures ReferralRec in Recommendations(s) <==>
      (Has(s, "cystic") || Has(s, "purulent") || Has(s, "conglobata")) && Count(s, "cystic") + Count(s, "purulent") > 3
  {
    assert ReferralRec in Block(1);
    BlockMembership(s, 1, ReferralRec);
    assert Triggered(s, 1) == ReferralTriggered(s);
    ReferralCondition(s);
  }

  lemma ReferralCondition(s: Summary)
    ensures ReferralTriggered(s) <==>
      (Has(s, "cystic") || Has(s, "purulent") || Has(s, "conglobata")) && Count(s, "cystic") + Count(s, "purulent") > 3
  {
    if Has(s, "cystic") { assert "cystic" in ["cystic", "purulent", "conglobata"]; }
    if Has(s, "purulent") { assert "purulent" in ["cystic", "purulent", "conglobata"]; }
    if Has(s, "conglobata") { assert "conglobata" in ["cystic", "purulent", "conglobata"]; }
  }

  /**
   * General advice is added only when fewer than three lines were collected,
   * and then all three lines go in and the list stays within five; the list
   * always has at least three lines.
   */
  lemma GeneralFillRule(s: Summary)
    ensures forall x :: x in GeneralRecs ==> (x in Recommendations(s) <==> |Collected(s)| < 3)
    ensures |Collected(s)| < 3 ==> |Recommendations(s)| <= 5
    ensures |Recommendations(s)| >= 3
  {
    RecommendationsShape(s);
    GeneralIsFresh(s);
  }

  /** A summary with four cystic lesions, blackheads, whiteheads, scars and milia. */
  const EveryBlockSummary: Summary :=
    [Entry("cystic", 4), Entry("blackhead", 1), Entry("whitehead", 1), Entry("acne_scars", 1), Entry("milium", 1)]

  lemma EveryBlockFires()
    ensures Has(EveryBlockSummary, "cystic") && Count(EveryBlockSummary, "cystic") > 3
    ensures Has(EveryBlockSummary, "blackhead") && Has(EveryBlockSummary, "whitehead")
    ensures Has(EveryBlockSummary, "acne_scars") && Has(EveryBlockSummary, "milium")
    ensures |Recommendations(EveryBlockSummary)| == 16
  {
    var s := EveryBlockSummary;
    assert s[0].name == "cystic" && s[1].name == "blackhead" && s[2].name == "whitehead";
    assert s[3].name == "acne_scars" && s[4].name == "milium";
    NoOverallCap(s);
  }

  lemma {:induction false} AllFireExpected(s: Summary, n: nat)
    requires n <= ConditionBlocks
    requires forall k :: 0 <= k < n ==> Triggered(s, k)
    ensures |Expected(s, n)| == BlockSizes(n)
  {
    if n > 0 {
      AllFireExpected(s, n - 1);
      ExpectedLength(s, n);
      assert Triggered(s, n - 1);
    }
  }

  lemma ExpectedStep(s: Summary, n: nat)
    requires 0 < n <= ConditionBlocks
    ensures Expected(s, n) == Expected(s, n - 1) + if Triggered(s, n - 1) then Block(n - 1) else []
  {
  }

  lemma ExpectedLength(s: Summary, n: nat)
    requires 0 < n <= ConditionBlocks
    ensures |Expected(s, n)| == |Expected(s, n - 1)| + if Triggered(s, n - 1) then |Block(n - 1)| else 0
  {
  }

  function BlockSizes(n: nat): nat
    requires n <= ConditionBlocks
  {
    if n == 0 then 0 else BlockSizes(n - 1) + |Block(n - 1)|
  }

  /**
   * Only the general advice is capped: a summary that fires every block gets
   * sixteen lines. `EveryBlockFires` shows such summaries exist.
   */
  lemma NoOverallCap(s: Summary)
    requires Has(s, "cystic") && Count(s, "cystic") > 3
    requires Has(s, "blackhead") && Has(s, "whitehead") && Has(s, "acne_scars") && Has(s, "milium")
    ensures |Recommendations(s)| == 16
  {
    assert "cystic" in ["cystic", "purulent", "Acne", "conglobata", "Pimples"];
    assert "cystic" in ["cystic", "purulent", "conglobata"];
    AllFireExpected(s, ConditionBlocks);
    RecommendationsShape(s);
  }

  /** Severity tiers of the legacy count-based feedback; a negative count falls into the mild tier. */
  function LegacySeverity(count: int): (r: Severity)
    ensures r == Clear <==> count == 0
    ensures r == Mild <==> count != 0 && count <= 5
    ensures r == Moderate <==> 5 < count <= 15
    ensures r == Severe <==> count > 15
  {
    if count == 0 then Clear
    else if count <= 5 then Mild
    else if count <= 15 then Moderate
    else Severe
  }

  /** Python's f-string rendering of an integer: a minus sign exactly for a negative number, then its digits. */
  function IntToString(n: int): (r: string)
    ensures |r| >= 1
    ensures r[0] == '-' <==> n < 0
    ensures n >= 0 ==> (forall i :: 0 <= i < |r| ==> Text.IsDigit(r[i])) && Text.ParseDigits(r) == n
    ensures n >= 0 && |r| > 1 ==> r[0] != '0'
    ensures n < 0 ==> |r| >= 2 && (|r| > 2 ==> r[1] != '0')
    ensures n < 0 ==> (forall i :: 1 <= i < |r| ==> Text.IsDigit(r[i])) && Text.ParseDigits(r[1..]) == -n
  {
    Text.NatToStringRoundTrip(if n < 0 then -n else n);
    if n < 0 then "-" + Text.NatToString(-n) else Text.NatToString(n)
  }

  /** The clear-tier message, "Great news! No acne detected. Your skin looks clear!". */
  const LegacyClearMessage: string := "Great news!" + " No acne detected." + " Your skin looks clear!"

  lemma ClearMessageIsNotCount()
    ensures |LegacyClearMessage| >= 9 && LegacyClearMessage[..9] != "You have "
  {
    assert LegacyClearMessage[0] == 'G';
  }

  /** The wording after the count; only the mild tier says "spot(s)". */
  function LegacySuffix(sev: Severity): string {
    match sev
    case Clear => ""
    case Mild => " acne spot(s) detected. This is considered mild acne."
    case Moderate => " acne spots detected. This is moderate acne."
    case Severe => " acne spots detected. This is considered severe acne."
  }

  function LegacyText(sev: Severity, count: int): (r: string)
    ensures sev == Clear ==> r == LegacyClearMessage
    ensures sev != Clear ==> |r| >= 9 + |IntToString(count)| && r[..9] == "You have " && r[9..9 + |IntToString(count)|] == IntToString(count)
    ensures sev != Clear ==> r[9 + |IntToString(count)|..] == LegacySuffix(sev)
  {
    if sev == Clear then LegacyClearMessage
    else "You have " + IntToString(count) + LegacySuffix(sev)
  }

  function LegacyRecs(sev: Severity): seq<string> {
    match sev
    case Clear => [
      "Maintain your current skincare routine",
      "Continue using sunscreen daily",
      "Stay hydrated and get enough sleep"
    ]
    case Mild => [
      "Use a gentle cleanser twice daily",
      "Apply a spot treatment with benzoyl peroxide or salicylic acid",
      "Avoid touching your face throughout the day",
      "Change pillowcases regularly"
    ]
    case Moderate => [
      "Use a cleanser with salicylic acid or benzoyl peroxide",
      "Consider adding a retinoid to your nighttime routine",
      "Avoid heavy, oily products",
      "If no improvement in 6-8 weeks, consult a dermatologist"
    ]
    case Severe => [
      "We recommend consulting a dermatologist soon",
      "Prescription treatments may be necessary",
      "Avoid picking or squeezing acne",
      "Use non-comedogenic (won't clog pores) products only",
      "Consider dietary factors (dairy, high-glycemic foods)"
    ]
  }

  datatype LegacyFeedback = LegacyFeedback(severity: Severity, feedback: string, recommendations: seq<string>)

  /** `generate_feedback(acne_count, avg_confidence)`: tiers by raw count; the confidence is not used. */
  function GenerateFeedback(count: int): (r: LegacyFeedback)
    ensures r.severity == LegacySeverity(count)
    ensures r.severity != Clear ==> |r.feedback| >= 9 + |IntToString(count)| && r.feedback[..9] == "You have "
    ensures r.severity != Clear ==> r.feedback[9..9 + |IntToString(count)|] == IntToString(count)
    ensures r.severity != Clear ==> r.feedback[9 + |IntToString(count)|..] == LegacySuffix(r.severity)
    ensures r.severity == Clear <==> r.feedback == LegacyClearMessage
  {
    var sev := LegacySeverity(count);
    ClearMessageIsNotCount();
    LegacyFeedback(sev, LegacyText(sev, count), LegacyRecs(sev))
  }

  /** For non-negative counts, more spots never give a milder legacy tier. */
  lemma LegacyMonotone(a: nat, b: nat)
    requires a <= b
    ensures Rank(GenerateFeedback(a).severity) <= Rank(GenerateFeedback(b).severity)
  {
    LegacySeverityMonotone(a, b);
  }

  lemma LegacySeverityMonotone(a: nat, b: nat)
    requires a <= b
    ensures Rank(LegacySeverity(a)) <= Rank(LegacySeverity(b))
  {
  }
}

=== FILE: fix_severity.dfy ===
/**
 * The one-off repair script: recompute every stored analysis's severity
 * from its score and overwrite it where it differs.
 */
module FixSeverity {
  import opened Wrappers
  import opened Records
  import Severities
  import Detections
  import Analysis

  /** The script's own copy of `determine_severity_from_score`. */
  function DetermineSeverity(score: real): (r: string)
    ensures r == "clear" <==> score >= 85.0
    ensures r == "mild" <==> 70.0 <= score < 85.0
    ensures r == "moderate" <==> 50.0 <= score < 70.0
    ensures r == "severe" <==> score < 50.0
  {
    if score >= 85.0 then "clear"
    else if score >= 70.0 then "mild"
    else if score >= 50.0 then "moderate"
    else "severe"
  }

  /** The copy agrees with the analysis router's function on every score. */
  lemma SameThresholds(score: real)
    ensures DetermineSeverity(score) == Severities.Name(Severities.FromScore(score))
  {
  }

  /** How bad a stored severity name is; 4 for a name of no tier. */
  function NameRank(name: string): nat {
    if name == "clear" then 0
    else if name == "mild" then 1
    else if name == "moderate" then 2
    else if name == "severe" then 3
    else 4
  }

  /** A higher score never yields a worse tier. */
  lemma DetermineSeverityMonotone(a: real, b: real)
    requires a <= b
    ensures NameRank(DetermineSeverity(b)) <= NameRank(DetermineSeverity(a)) < 4
  {
    SameThresholds(a);
    SameThresholds(b);
    Severities.FromScoreMonotone(a, b);
  }

  /** Comparing a missing score with a number raises `TypeError`; the script stops before committing. */
  datatype RepairError = ScoreMissing(id: int)

  /** A record whose stored severity is the one its score calls for. */
  predicate Consistent(r: AnalysisRecord) {
    r.score.Some? && r.severity == Some(DetermineSeverity(r.score.value))
  }

  /** The loop body: overwrite the severity when it differs from the one the score calls for. */
  function Fix(r: AnalysisRecord): (r': AnalysisRecord)
    requires r.score.Some?
    ensures Consistent(r')
    ensures r' == r.(severity := r'.severity)
    ensures Consistent(r) ==> r' == r
  {
    var correct := DetermineSeverity(r.score.value);
    if r.severity != Some(correct) then r.(severity := Some(correct)) else r
  }

  /** The index of the first record without a score, or `|rs|`. */
  function FirstMissing(rs: seq<AnalysisRecord>): (k: nat)
    ensures k <= |rs|
    ensures forall i :: 0 <= i < k ==> rs[i].score.Some?
    ensures k < |rs| ==> rs[k].score.None?
  {
    if |rs| == 0 then 0
    else if rs[0].score.None? then 0
    else 1 + FirstMissing(rs[1..])
  }

  /**
   * The repair over all records, in order. The committed table is the
   * result; on failure nothing is committed and the table keeps `rs`.
   */
  function Repair(rs: seq<AnalysisRecord>): (r: Result<seq<AnalysisRecord>, RepairError>)
    ensures r.Success? <==> forall i :: 0 <= i < |rs| ==> rs[i].score.Some?
    ensures r.Failure? ==> r.error == ScoreMissing(rs[FirstMissing(rs)].id)
    ensures r.Success? ==> |r.value| == |rs|
    ensures r.Success? ==> forall i :: 0 <= i < |rs| ==> Consistent(r.value[i])
    ensures r.Success? ==> forall i :: 0 <= i < |rs| ==> r.value[i] == rs[i].(severity := r.value[i].severity)
    ensures r.Success? ==> forall i :: 0 <= i < |rs| && Consistent(rs[i]) ==> r.value[i] == rs[i]
  {
    if |rs| == 0 then Success([])
    else if rs[0].score.None? then Failure(ScoreMissing(rs[0].id))
    else
      match Repair(rs[1..])
      case Failure(e) => Failure(e)
      case Success(rest) => Success([Fix(rs[0])] + rest)
  }

  /** Running the repair on its own output changes nothing. */
  lemma RepairIdempotent(rs: seq<AnalysisRecord>)
    requires Repair(rs).Success?
    ensures Repair(Repair(rs).value) == Repair(rs)
  {
    RepairFixesConsistent(Repair(rs).value);
  }

  /** A table whose every record is already consistent is left exactly as it was. */
  lemma {:induction false} RepairFixesConsistent(rs: seq<AnalysisRecord>)
    requires forall i :: 0 <= i < |rs| ==> Consistent(rs[i])
    ensures Repair(rs) == Success(rs)
  {
    if |rs| > 0 {
      RepairFixesConsistent(rs[1..]);
      assert [rs[0]] + rs[1..] == rs;
    }
  }

  /** How many records the script reports as fixed. */
  function MismatchCount(rs: seq<AnalysisRecord>): nat
    requires forall i :: 0 <= i < |rs| ==> rs[i].score.Some?
  {
    if |rs| == 0 then 0
    else (if Consistent(rs[0]) then 0 else 1) + MismatchCount(rs[1..])
  }

  /**
   * The script's loop as written, over an in-memory table: it returns the
   * table to commit (or the error that aborts the script) and how many
   * records it fixed.
   */
  method RepairLoop(rs: seq<AnalysisRecord>) returns (result: Result<seq<AnalysisRecord>, RepairError>, fixed: nat)
    ensures result == Repair(rs)
    ensures result.Success? ==> fixed == MismatchCount(rs)
  {
    var table := rs;
    fixed := 0;
    var i := 0;
    while i < |rs|
      invariant 0 <= i <= |rs|
      invariant |table| == |rs|
      invariant forall j :: 0 <= j < i ==> rs[j].score.Some? && table[j] == Fix(rs[j])
      invariant forall j :: i <= j < |rs| ==> table[j] == rs[j]
      invariant fixed == MismatchCount(rs[..i])
    {
      if rs[i].score.None? {
        assert FirstMissing(rs) == i by {
          FirstMissingAt(rs, i);
        }
        return Failure(ScoreMissing(rs[i].id)), fixed;
      }
      var correct := DetermineSeverity(rs[i].score.value);
      MismatchCountSnoc(rs[..i + 1]);
      assert rs[..i + 1][..i] == rs[..i];
      if table[i].severity != Some(correct) {
        table := table[i := table[i].(severity := Some(correct))];
        fixed := fixed + 1;
      }
      i := i + 1;
    }
    assert rs[..i] == rs;
    RepairIsFixMap(rs);
    assert table == Repair(rs).value;
    return Success(table), fixed;
  }

  lemma {:induction false} MismatchCountSnoc(rs: seq<AnalysisRecord>)
    requires |rs| > 0
    requires forall i :: 0 <= i < |rs| ==> rs[i].score.Some?
    ensures MismatchCount(rs) == MismatchCount(rs[..|rs| - 1]) + (if Consistent(rs[|rs| - 1]) then 0 else 1)
  {
    if |rs| > 1 {
      MismatchCountSnoc(rs[1..]);
      assert rs[1..][..|rs| - 2] == rs[..|rs| - 1][1..];
    }
  }

  lemma {:induction false} FirstMissingAt(rs: seq<AnalysisRecord>, i: nat)
    requires i < |rs| && rs[i].score.None?
    requires forall j :: 0 <= j < i ==> rs[j].score.Some?
    ensures FirstMissing(rs) == i
  {
    if i > 0 {
      FirstMissingAt(rs[1..], i - 1);
    }
  }

  lemma {:induction false} RepairIsFixMap(rs: seq<AnalysisRecord>)
    requires forall i :: 0 <= i < |rs| ==> rs[i].score.Some?
    ensures Repair(rs).Success?
    ensures forall i :: 0 <= i < |rs| ==> Repair(rs).value[i] == Fix(rs[i])
  {
    if |rs| > 0 {
      RepairIsFixMap(rs[1..]);
    }
  }

  /** A row saved by the analysis endpoint already has the severity its score calls for, so the repair leaves it alone. */
  lemma SavedAnalysisNeedsNoRepair(raw: Option<seq<Detections.Prediction>>, id: int, userId: int, imagePath: string,
                                   createdAt: int, summaryJson: string, recommendationsJson: string)
    requires Analysis.AnalyzeFaceIntended(raw).Success?
    ensures var rec := Analysis.ToRecord(Analysis.AnalyzeFaceIntended(raw).value, id, userId, imagePath, createdAt,
                                         summaryJson, recommendationsJson);
      Consistent(rec) && Repair([rec]) == Success([rec])
  {
    var rep := Analysis.AnalyzeFaceIntended(raw).value;
    Analysis.ReportInvariants(raw);
    SameThresholds(rep.skinScore as real);
    var rec := Analysis.ToRecord(rep, id, userId, imagePath, createdAt, summaryJson, recommendationsJson);
    RepairFixesConsistent([rec]);
  }
}

=== FILE: records.dfy ===
/** A stored row of the `analyses` table. Every column but the key is nullable. */
module Records {
  import opened Wrappers

  /**
   * The columns of an `Analysis` row. `score` is a floating-point column;
   * the timestamp is an opaque number; the two JSON columns are kept as the
   * text that was stored.
   */
  datatype AnalysisRecord = AnalysisRecord(
    id: int,
    userId: Option<int>,
    acneCount: Option<int>,
    severity: Option<string>,
    score: Option<real>,
    imagePath: Option<string>,
    notes: Option<string>,
    createdAt: Option<int>,
    detectionSummary: Option<string>,
    feedback: Option<string>,
    recommendations: Option<string>
  )
}

=== FILE: scoring.dfy ===
/**
 * `calculate_skin_score_multi`: a tiered, weighted penalty per detected
 * class, summed, capped at 70 and subtracted from a base of 100. Penalties
 * are exact reals here where Python uses floats.
 */
module Scoring {
  import opened Summaries

  const BaseScore: int := 100
  const PenaltyCap: real := 70.0
  const MinScore: int := 30
  const MaxScore: int := 100
  const DefaultWeight: nat := 4

  /** Per-class severity weights; lookups are exact, case-sensitive string matches. */
  const SeverityWeights: map<string, nat> := map[
    "cystic" := 8,
    "purulent" := 7,
    "Acne" := 6,
    "conglobata" := 8,
    "Pimples" := 5,
    "papular" := 5,
    "whitehead" := 4,
    "blackhead" := 4,
    "acne_scars" := 4,
    "keloid" := 5,
    "folliculitis" := 3,
    "milium" := 2,
    "crystalline" := 2,
    "flat_wart" := 3,
    "syringoma" := 2,
    "sebo-crystan-conglo" := 5
  ]

  /** `severity_weights.get(name, 4)`. */
  function Weight(name: string): (w: nat)
    ensures name in SeverityWeights ==> w == SeverityWeights[name]
    ensures name !in SeverityWeights ==> w == DefaultWeight
    ensures 2 <= w <= 8
  {
    if name in SeverityWeights then SeverityWeights[name] else DefaultWeight
  }

  /**
   * Penalty of `count` detections of a class with weight `w`: full weight
   * for the first two, 1.2 times for the third to fifth, full weight again
   * for the sixth to tenth and 0.8 times beyond.
   */
  function Penalty(w: nat, count: nat): real
  {
    var wr := w as real;
    if count <= 2 then count as real * wr
    else if count <= 5 then 2.0 * wr + (count - 2) as real * (wr * 1.2)
    else if count <= 10 then 2.0 * wr + 3.0 * wr * 1.2 + (count - 5) as real * (wr * 1.0)
    else 2.0 * wr + 3.0 * wr * 1.2 + 5.0 * wr + (count - 10) as real * (wr * 0.8)
  }

  /** The marginal cost of the next detection: what the tier of `count + 1` charges. */
  function MarginalRate(count: nat): real {
    if count < 2 then 1.0
    else if count < 5 then 1.2
    else if count < 10 then 1.0
    else 0.8
  }

  /** The tiers join without a jump: each further detection adds exactly its tier's share of the weight. */
  lemma PenaltyStep(w: nat, count: nat)
    ensures Penalty(w, count + 1) == Penalty(w, count) + w as real * MarginalRate(count)
    ensures Penalty(w, 0) == 0.0
  {
  }

  /** The cost of one further detection lies between 0.8 and 1.2 times the weight. */
  lemma MarginalCostBounds(w: nat, count: nat)
    ensures 0.8 * w as real <= w as real * MarginalRate(count) <= 1.2 * w as real
  {
    var wr := w as real;
    if count < 2 {
      assert wr * MarginalRate(count) == wr;
    } else if count < 5 {
      assert wr * MarginalRate(count) == wr * 1.2;
    } else if count < 10 {
      assert wr * MarginalRate(count) == wr;
    } else {
      assert wr * MarginalRate(count) == wr * 0.8;
    }
  }

  /** The penalty lies between 0.8 and 1.2 times count × weight: the cheapest and the dearest tier rates. */
  lemma {:induction false} PenaltyBounds(w: nat, count: nat)
    ensures 0.8 * (count * w) as real <= Penalty(w, count) <= 1.2 * (count * w) as real
  {
    PenaltyStep(w, 0);
    if count > 0 {
      PenaltyBounds(w, count - 1);
      PenaltyStep(w, count - 1);
      MarginalCostBounds(w, count - 1);
      MulSucc(count - 1, w);
    }
  }

  lemma MulSucc(a: nat, b: nat)
    ensures (a + 1) * b == a * b + b
  {
  }

  /** A reference definition: the penalty as the sum of each detection's marginal cost. */
  function StepSum(w: nat, count: nat): real {
    if count == 0 then 0.0 else StepSum(w, count - 1) + w as real * MarginalRate(count - 1)
  }

  /** The closed tier formula and the step-by-step sum agree on every count. */
  lemma {:induction false} PenaltyIsStepSum(w: nat, count: nat)
    ensures Penalty(w, count) == StepSum(w, count)
  {
    PenaltyStep(w, 0);
    if count > 0 {
      PenaltyIsStepSum(w, count - 1);
      PenaltyStep(w, count - 1);
    }
  }

  /** At the tier ends the penalty is 2, 5.6 and 10.6 times the weight. */
  lemma PenaltyAtTierEnds(w: nat)
    ensures Penalty(w, 2) == 2.0 * w as real
    ensures Penalty(w, 5) == 5.6 * w as real
    ensures Penalty(w, 10) == 10.6 * w as real
  {
  }

  /** The per-class penalty never decreases as the count grows, and is never negative. */
  lemma {:induction false} PenaltyMonotone(w: nat, a: nat, b: nat)
    requires a <= b
    ensures 0.0 <= Penalty(w, a) <= Penalty(w, b)
    decreases b - a
  {
    PenaltyStep(w, a);
    if a < b {
      MarginalCostBounds(w, a);
      PenaltyMonotone(w, a + 1, b);
    } else {
      PenaltyNonNegative(w, a);
    }
  }

  lemma {:induction false} PenaltyNonNegative(w: nat, c: nat)
    ensures Penalty(w, c) >= 0.0
  {
    PenaltyStep(w, 0);
    if c > 0 {
      PenaltyStep(w, c - 1);
      PenaltyNonNegative(w, c - 1);
    }
  }

  /** The loop's `total_penalty` before the cap. */
  function TotalPenalty(s: Summary): (r: real)
    ensures r >= 0.0
    ensures 1.6 * Total(s) as real <= r <= 9.6 * Total(s) as real
  {
    if |s| == 0 then 0.0
    else
      PenaltyPerDetection(Weight(s[0].name), s[0].count);
      Penalty(Weight(s[0].name), s[0].count) + TotalPenalty(s[1..])
  }

  /** The total is additive over the summary's entries. */
  lemma {:induction false} TotalPenaltyAppend(s: Summary, t: Summary)
    ensures TotalPenalty(s + t) == TotalPenalty(s) + TotalPenalty(t)
  {
    if |s| > 0 {
      assert (s + t)[0] == s[0];
      assert (s + t)[1..] == s[1..] + t;
      TotalPenaltyAppend(s[1..], t);
    } else {
      assert s + t == t;
    }
  }

  /** A single class is charged its tiered penalty at its own table weight. */
  lemma TotalPenaltySingle(e: Entry)
    ensures TotalPenalty([e]) == Penalty(Weight(e.name), e.count)
  {
    assert [e][1..] == [];
  }

  /** With a weight from the table or the default, each detection costs between 1.6 and 9.6 points. */
  lemma {:induction false} PenaltyPerDetection(w: nat, c: nat)
    requires 2 <= w <= 8
    ensures 1.6 * c as real <= Penalty(w, c) <= 9.6 * c as real
  {
    PenaltyStep(w, 0);
    if c > 0 {
      PenaltyPerDetection(w, c - 1);
      PenaltyStep(w, c - 1);
      MarginalCostBounds(w, c - 1);
    }
  }

  /** Python's `int(x)` on a float: truncation toward zero. */
  function Trunc(x: real): (r: int)
    ensures x >= 0.0 ==> 0 <= r && r as real <= x < r as real + 1.0
    ensures x < 0.0 ==> r <= 0 && r as real - 1.0 < x <= r as real
  {
    if x >= 0.0 then x.Floor else -((-x).Floor)
  }

  /** `base_score - min(total_penalty, 70)`, before truncation and clamping. */
  function RawScore(s: Summary): (r: real)
    ensures 30.0 <= r <= 100.0
  {
    var p := TotalPenalty(s);
    BaseScore as real - (if p < PenaltyCap then p else PenaltyCap)
  }

  function Clamp(lo: int, hi: int, x: int): int {
    if x < lo then lo else if x > hi then hi else x
  }

  /** `calculate_skin_score_multi(detection_summary, avg_confidence)`; the confidence is not used. */
  function SkinScore(s: Summary): (r: int)
    ensures MinScore <= r <= MaxScore
    ensures s == [] ==> r == MaxScore
    ensures r as real <= RawScore(s) < r as real + 1.0
  {
    Clamp(MinScore, MaxScore, Trunc(RawScore(s)))
  }

  /** The cap alone keeps the score at 30 or above: the final clamp never raises it. */
  lemma ClampNeverBinds(s: Summary)
    ensures SkinScore(s) == RawScore(s).Floor
    ensures Trunc(RawScore(s)) == RawScore(s).Floor
  {
  }

  /** A summary whose penalty reaches 70 scores exactly the minimum. */
  lemma CapReachesMinimum(s: Summary)
    requires TotalPenalty(s) >= PenaltyCap
    ensures SkinScore(s) == MinScore
  {
  }

  /** With no detections at all nothing is deducted. */
  lemma EmptyScoresFull()
    ensures SkinScore([]) == 100
  {
  }

  /** Raising one class's count never lowers the total penalty. */
  lemma {:induction false} RaiseTotalPenalty(s: Summary, name: string, c: nat)
    requires DistinctKeys(s)
    requires c >= Count(s, name)
    ensures TotalPenalty(Raise(s, name, c)) >= TotalPenalty(s)
  {
    if |s| == 0 {
      PenaltyMonotone(Weight(name), 0, c);
    } else if s[0].name == name {
      PenaltyMonotone(Weight(name), s[0].count, c);
      assert Raise(s, name, c)[1..] == s[1..];
    } else {
      assert DistinctKeys(s[1..]);
      RaiseTotalPenalty(s[1..], name, c);
      assert Raise(s, name, c)[1..] == Raise(s[1..], name, c);
    }
  }

  /** Raising any single class count never raises the score. */
  lemma RaiseNeverImproves(s: Summary, name: string, c: nat)
    requires DistinctKeys(s)
    requires c >= Count(s, name)
    ensures SkinScore(Raise(s, name, c)) <= SkinScore(s)
  {
    RaiseTotalPenalty(s, name, c);
  }

  /** One more detection, of any class, never raises the score. */
  lemma {:induction false} AddNeverImproves(s: Summary, name: string)
    ensures SkinScore(Add(s, name)) <= SkinScore(s)
  {
    AddTotalPenalty(s, name);
  }

  lemma {:induction false} AddTotalPenalty(s: Summary, name: string)
    ensures TotalPenalty(Add(s, name)) >= TotalPenalty(s)
  {
    if |s| == 0 {
      PenaltyMonotone(Weight(name), 0, 1);
    } else if s[0].name == name {
      PenaltyMonotone(Weight(name), s[0].count, s[0].count + 1);
      assert Add(s, name)[1..] == s[1..];
    } else {
      AddTotalPenalty(s[1..], name);
      assert Add(s, name)[1..] == Add(s[1..], name);
    }
  }

  /** A class outside the weight table is charged as weight 4. */
  lemma UnknownClassWeight(name: string, count: nat)
    requires name !in SeverityWeights
    ensures TotalPenalty([Entry(name, count)]) == Penalty(4, count)
  {
  }

  /** One cystic lesion: penalty 8, score 92. */
  lemma OneCystic()
    ensures SkinScore([Entry("cystic", 1)]) == 92
  {
    assert Weight("cystic") == 8;
  }

  /** Three cystic lesions: penalty 2*8 + 8*1.2 = 25.6, and 74.4 truncates to 74. */
  lemma ThreeCystic()
    ensures SkinScore([Entry("cystic", 3)]) == 74
  {
    assert Weight("cystic") == 8;
    assert TotalPenalty([Entry("cystic", 3)]) == 25.6;
  }

  /** Three blackheads: penalty 12.8, score 87. */
  lemma ThreeBlackheads()
    ensures SkinScore([Entry("blackhead", 3)]) == 87
  {
    assert Weight("blackhead") == 4;
    assert TotalPenalty([Entry("blackhead", 3)]) == 12.8;
  }
}

=== FILE: severities.dfy ===
/** `determine_severity_from_score`: four tiers cut at 85, 70 and 50. */
module Severities {

  datatype Severity = Clear | Mild | Moderate | Severe

  /** The string the system shows and stores for each tier. */
  function Name(s: Severity): string {
    match s
    case Clear => "clear"
    case Mild => "mild"
    case Moderate => "moderate"
    case Severe => "severe"
  }

  /** How bad a tier is: 0 for clear up to 3 for severe. */
  function Rank(s: Severity): nat {
    match s
    case Clear => 0
    case Mild => 1
    case Moderate => 2
    case Severe => 3
  }

  /** The score interval `[lo, hi)` a tier covers (unbounded at either end where noted). */
  predicate InTier(score: real, s: Severity) {
    match s
    case Clear => 85.0 <= score
    case Mild => 70.0 <= score < 85.0
    case Moderate => 50.0 <= score < 70.0
    case Severe => score < 50.0
  }

  /** `determine_severity_from_score(score)`. */
  function FromScore(score: real): (r: Severity)
    ensures InTier(score, r)
    ensures forall t :: InTier(score, t) ==> t == r
  {
    if score >= 85.0 then Clear
    else if score >= 70.0 then Mild
    else if score >= 50.0 then Moderate
    else Severe
  }

  /** A higher score never yields a worse tier. */
  lemma FromScoreMonotone(a: real, b: real)
    requires a <= b
    ensures Rank(FromScore(b)) <= Rank(FromScore(a))
  {
  }
}

=== FILE: summaries.dfy ===
/**
 * The detection summary of `analyze_face`: a dictionary from class name to
 * count. Python dictionaries keep insertion order and the feedback text
 * lists classes in that order, so the summary is an association list with
 * distinct keys, in first-occurrence order.
 */
module Summaries {

  datatype Entry = Entry(name: string, count: nat)

  type Summary = seq<Entry>

  /** No class name appears twice. */
  predicate DistinctKeys(s: Summary) {
    forall i, j :: 0 <= i < j < |s| ==> s[i].name != s[j].name
  }

  /** `name in detection_summary`. */
  predicate Has(s: Summary, name: string) {
    exists i :: 0 <= i < |s| && s[i].name == name
  }

  /** `detection_summary.get(name, 0)`. */
  function Count(s: Summary, name: string): (r: nat)
    ensures !Has(s, name) ==> r == 0
    ensures forall i :: 0 <= i < |s| && s[i].name == name && DistinctKeys(s) ==> r == s[i].count
  {
    if |s| == 0 then 0
    else if s[0].name == name then s[0].count
    else Count(s[1..], name)
  }

  /** `sum(detection_summary.values())`: no single count exceeds it, and it is 0 only when every count is. */
  function Total(s: Summary): (r: nat)
    ensures forall i :: 0 <= i < |s| ==> s[i].count <= r
    ensures r == 0 <==> forall i :: 0 <= i < |s| ==> s[i].count == 0
  {
    if |s| == 0 then 0 else s[0].count + Total(s[1..])
  }

  /**
   * `detection_summary[name] = detection_summary.get(name, 0) + 1`: an
   * existing key keeps its place, a new key goes to the end.
   */
  function Add(s: Summary, name: string): (r: Summary)
    ensures Has(s, name) ==> |r| == |s|
    ensures !Has(s, name) ==> r == s + [Entry(name, 1)]
    ensures forall i :: 0 <= i < |s| ==> r[i].name == s[i].name
  {
    if |s| == 0 then [Entry(name, 1)]
    else if s[0].name == name then [Entry(name, s[0].count + 1)] + s[1..]
    else [s[0]] + Add(s[1..], name)
  }

  /** Adding one detection raises its class by one and leaves every other class alone. */
  lemma {:induction false} AddCount(s: Summary, name: string, other: string)
    ensures Count(Add(s, name), other) == Count(s, other) + (if other == name then 1 else 0)
  {
    if |s| > 0 && s[0].name != name {
      AddCount(s[1..], name, other);
      assert Add(s, name)[1..] == Add(s[1..], name);
    }
  }

  lemma {:induction false} AddTotal(s: Summary, name: string)
    ensures Total(Add(s, name)) == Total(s) + 1
  {
    if |s| > 0 && s[0].name != name {
      AddTotal(s[1..], name);
      assert Add(s, name)[1..] == Add(s[1..], name);
    }
  }

  lemma AddKeepsDistinct(s: Summary, name: string)
    requires DistinctKeys(s)
    ensures DistinctKeys(Add(s, name))
  {
    var r := Add(s, name);
    forall i, j | 0 <= i < j < |r|
      ensures r[i].name != r[j].name
    {
      if j < |s| {
        assert r[i].name == s[i].name && r[j].name == s[j].name;
      } else {
        assert !Has(s, name) && r == s + [Entry(name, 1)];
        assert r[j].name == name && r[i].name == s[i].name;
      }
    }
  }

  lemma AddHas(s: Summary, name: string, other: string)
    ensures Has(Add(s, name), other) <==> Has(s, other) || other == name
  {
    var r := Add(s, name);
    if Has(s, name) {
      var k :| 0 <= k < |s| && s[k].name == name;
      assert r[k].name == name;
    } else {
      assert r[|s|].name == name;
    }
  }

  /** Counting detections by class, in the order the loop of `analyze_face` visits them. */
  function Summarize(names: seq<string>): (r: Summary)
    ensures DistinctKeys(r)
    ensures Total(r) == |names|
    ensures |r| <= |names|
  {
    if |names| == 0 then []
    else
      var prefix := Summarize(names[..|names| - 1]);
      AddKeepsDistinct(prefix, names[|names| - 1]);
      AddTotal(prefix, names[|names| - 1]);
      Add(prefix, names[|names| - 1])
  }

  /**
   * The summary has one key per class seen, each counted exactly as often
   * as it occurs, and the counts sum to the number of detections.
   */
  lemma {:induction false} SummarizeCounts(names: seq<string>)
    ensures DistinctKeys(Summarize(names))
    ensures forall k :: Count(Summarize(names), k) == multiset(names)[k]
    ensures forall k :: Has(Summarize(names), k) <==> k in names
    ensures Total(Summarize(names)) == |names|
    ensures forall i :: 0 <= i < |Summarize(names)| ==> Summarize(names)[i].count >= 1
  {
    if |names| > 0 {
      var init := names[..|names| - 1];
      var last := names[|names| - 1];
      assert names == init + [last];
      SummarizeCounts(init);
      var s := Summarize(init);
      var r := Summarize(names);
      assert r == Add(s, last);
      AddKeepsDistinct(s, last);
      AddTotal(s, last);
      forall k
        ensures Count(r, k) == multiset(names)[k]
      {
        AddCount(s, last, k);
      }
      forall k
        ensures Has(r, k) <==> k in names
      {
        AddHas(s, last, k);
      }
      AddPositive(s, last);
    }
  }

  lemma AddPositive(s: Summary, name: string)
    requires forall i :: 0 <= i < |s| ==> s[i].count >= 1
    ensures forall i :: 0 <= i < |Add(s, name)| ==> Add(s, name)[i].count >= 1
  {
  }

  /** The position of the first occurrence of `k` in `names`. */
  function FirstIndex(names: seq<string>, k: string): (r: nat)
    requires k in names
    ensures r < |names| && names[r] == k
    ensures forall q :: 0 <= q < r ==> names[q] != k
  {
    if names[0] == k then 0 else 1 + FirstIndex(names[1..], k)
  }

  lemma FirstIndexPrefix(init: seq<string>, last: string, k: string)
    requires k in init
    ensures k in init + [last] && FirstIndex(init + [last], k) == FirstIndex(init, k)
  {
    var names := init + [last];
    var p := FirstIndex(init, k);
    assert names[p] == k;
  }

  /** Every key of `r` occurs in `names`, and keys are listed in the order of their first occurrence. */
  predicate FirstOccurrenceOrder(names: seq<string>, r: Summary) {
    && (forall i :: 0 <= i < |r| ==> r[i].name in names)
    && forall i, j :: 0 <= i < j < |r| ==> FirstIndex(names, r[i].name) < FirstIndex(names, r[j].name)
  }

  /**
   * The summary lists classes in the order of their first detection, as a
   * Python dictionary keeps insertion order.
   */
  lemma {:induction false} SummarizeFirstOccurrence(names: seq<string>)
    ensures forall i :: 0 <= i < |Summarize(names)| ==> Summarize(names)[i].name in names
    ensures forall i, j :: 0 <= i < j < |Summarize(names)| ==>
      FirstIndex(names, Summarize(names)[i].name) < FirstIndex(names, Summarize(names)[j].name)
  {
    if |names| > 0 {
      var init := names[..|names| - 1];
      var last := names[|names| - 1];
      assert names == init + [last];
      SummarizeFirstOccurrence(init);
      SummarizeHas(init, last);
      AddFirstOccurrence(init, last, Summarize(init));
    }
  }

  lemma AddFirstOccurrence(init: seq<string>, last: string, s: Summary)
    requires FirstOccurrenceOrder(init, s)
    requires Has(s, last) <==> last in init
    ensures FirstOccurrenceOrder(init + [last], Add(s, last))
  {
    var names := init + [last];
    var r := Add(s, last);
    forall i | 0 <= i < |s|
      ensures r[i].name == s[i].name && s[i].name in names
      ensures FirstIndex(names, s[i].name) == FirstIndex(init, s[i].name)
    {
      FirstIndexPrefix(init, last, s[i].name);
    }
    if !Has(s, last) {
      assert r == s + [Entry(last, 1)];
      assert names[|init|] == last;
      assert FirstIndex(names, last) == |init|;
      forall i, j | 0 <= i < j < |r|
        ensures FirstIndex(names, r[i].name) < FirstIndex(names, r[j].name)
      {
        if j == |s| {
          assert FirstIndex(init, s[i].name) < |init|;
        }
      }
    }
  }

  lemma SummarizeHas(names: seq<string>, k: string)
    ensures Has(Summarize(names), k) <==> k in names
  {
    SummarizeCounts(names);
  }

  /** The summary is empty exactly when there were no detections. */
  lemma SummarizeEmpty(names: seq<string>)
    ensures Summarize(names) == [] <==> |names| == 0
  {
    SummarizeCounts(names);
  }

  /** Replaces the count of class `name` by `c` (adding it when absent); used to state monotonicity. */
  function Raise(s: Summary, name: string, c: nat): (r: Summary)
    ensures Count(r, name) == c
    ensures forall k :: k != name ==> Count(r, k) == Count(s, k)
  {
    if |s| == 0 then [Entry(name, c)]
    else if s[0].name == name then [Entry(name, c)] + s[1..]
    else [s[0]] + Raise(s[1..], name, c)
  }
}

=== FILE: text.dfy ===
/**
 * The small pieces of Python string handling the rule engine relies on:
 * `str.lower()`, `str.replace('_', ' ')`, `str.title()`, `str(int)` and
 * `", ".join(...)`. Case mapping is modelled on the ASCII letters.
 */
module Text {

  predicate IsUpper(c: char) {
    'A' <= c <= 'Z'
  }

  predicate IsLower(c: char) {
    'a' <= c <= 'z'
  }

  /** A cased character in the sense of `str.title()`. */
  predicate IsLetter(c: char) {
    IsUpper(c) || IsLower(c)
  }

  function LowerChar(c: char): (r: char)
    ensures !IsUpper(r)
    ensures IsLetter(r) <==> IsLetter(c)
    ensures !IsUpper(c) ==> r == c
    ensures IsUpper(c) ==> r as int - 'a' as int == c as int - 'A' as int
  {
    if IsUpper(c) then (c as int - 'A' as int + 'a' as int) as char else c
  }

  function UpperChar(c: char): (r: char)
    ensures !IsLower(r)
    ensures IsLetter(r) <==> IsLetter(c)
    ensures !IsLower(c) ==> r == c
    ensures IsLower(c) ==> r as int - 'A' as int == c as int - 'a' as int
  {
    if IsLower(c) then (c as int - 'a' as int + 'A' as int) as char else c
  }

  /** Python's `s.lower()`. */
  function Lower(s: string): (r: string)
    ensures |r| == |s|
    ensures forall i :: 0 <= i < |r| ==> !IsUpper(r[i])
    ensures (forall i :: 0 <= i < |s| ==> !IsUpper(s[i])) ==> r == s
    ensures forall i :: 0 <= i < |s| && !IsUpper(s[i]) ==> r[i] == s[i]
    ensures forall i :: 0 <= i < |s| && IsUpper(s[i]) ==> r[i] as int - 'a' as int == s[i] as int - 'A' as int
  {
    seq(|s|, i requires 0 <= i < |s| => LowerChar(s[i]))
  }

  /** A lower-cased string never equals a string holding an upper-case letter. */
  lemma LowerNeverHasUpper(s: string, t: string, i: nat)
    requires i < |t| && IsUpper(t[i])
    ensures Lower(s) != t
  {
    if |Lower(s)| == |t| {
      assert !IsUpper(Lower(s)[i]);
    }
  }

  /** Python's `s.replace('_', ' ')`. */
  function SpaceUnderscores(s: string): (r: string)
    ensures |r| == |s|
    ensures '_' !in r
    ensures forall i :: 0 <= i < |s| && s[i] != '_' ==> r[i] == s[i]
    ensures forall i :: 0 <= i < |s| && s[i] == '_' ==> r[i] == ' '
  {
    seq(|s|, i requires 0 <= i < |s| => if s[i] == '_' then ' ' else s[i])
  }

  function TitleChar(s: string, i: nat): char
    requires i < |s|
  {
    if !IsLetter(s[i]) then s[i]
    else if i > 0 && IsLetter(s[i - 1]) then LowerChar(s[i])
    else UpperChar(s[i])
  }

  /**
   * Python's `s.title()`: a letter that follows a letter becomes lower case,
   * any other letter upper case; everything else is unchanged.
   */
  function Title(s: string): (r: string)
    ensures |r| == |s|
    ensures forall i :: 0 <= i < |s| ==> (IsLetter(r[i]) <==> IsLetter(s[i]))
    ensures forall i :: 0 <= i < |s| && !IsLetter(s[i]) ==> r[i] == s[i]
    ensures forall i :: 0 < i < |s| && IsLetter(s[i]) && IsLetter(s[i - 1]) ==> IsLower(r[i])
    ensures forall i :: 0 <= i < |s| && IsLetter(s[i]) && (i == 0 || !IsLetter(s[i - 1])) ==> IsUpper(r[i])
    ensures forall i :: 0 <= i < |s| ==> LowerChar(r[i]) == LowerChar(s[i])
  {
    seq(|s|, i requires 0 <= i < |s| => TitleChar(s, i))
  }

  /** Title-casing changes only case: lower-casing both sides gives the same string. */
  lemma TitleKeepsLower(s: string)
    ensures Lower(Title(s)) == Lower(s)
  {
  }

  function DigitChar(d: nat): (c: char)
    requires d < 10
  {
    ('0' as int + d) as char
  }

  predicate IsDigit(c: char) {
    '0' <= c <= '9'
  }

  function DigitValue(c: char): nat
    requires IsDigit(c)
  {
    c as int - '0' as int
  }

  /** Python's `str(n)` for a non-negative integer, in decimal without leading zeros. */
  function NatToString(n: nat): (r: string)
    ensures |r| >= 1
    ensures forall i :: 0 <= i < |r| ==> IsDigit(r[i])
    ensures |r| > 1 ==> r[0] != '0'
  {
    if n < 10 then [DigitChar(n)] else NatToString(n / 10) + [DigitChar(n % 10)]
  }

  /** Reads a string of decimal digits back as a number. */
  function ParseDigits(s: string): nat
    requires forall i :: 0 <= i < |s| ==> IsDigit(s[i])
  {
    if |s| == 0 then 0 else ParseDigits(s[..|s| - 1]) * 10 + DigitValue(s[|s| - 1])
  }

  /** Decimal printing loses nothing. */
  lemma {:induction false} NatToStringRoundTrip(n: nat)
    ensures ParseDigits(NatToString(n)) == n
  {
    if n >= 10 {
      NatToStringRoundTrip(n / 10);
      var s := NatToString(n);
      assert s[..|s| - 1] == NatToString(n / 10);
    }
  }

  /** The length of the parts with one separator after each. */
  function PaddedLength(sep: string, parts: seq<string>): nat {
    if |parts| == 0 then 0 else |parts[0]| + |sep| + PaddedLength(sep, parts[1..])
  }

  /**
   * Python's `sep.join(parts)`: the first part comes first, a separator
   * follows it when more parts come, and the result holds every part and
   * one separator between each two neighbours.
   */
  function Join(sep: string, parts: seq<string>): (r: string)
    ensures |parts| > 0 ==> r + sep == Terminated(sep, parts)
    ensures |parts| == 1 ==> r == parts[0]
    ensures |parts| == 0 ==> r == ""
    ensures |parts| > 0 ==> |r| + |sep| == PaddedLength(sep, parts)
    ensures |parts| > 0 ==> |parts[0]| <= |r| && r[..|parts[0]|] == parts[0]
    ensures |parts| > 1 ==> |parts[0]| + |sep| <= |r| && r[|parts[0]|..|parts[0]| + |sep|] == sep
  {
    if |parts| == 0 then ""
    else if |parts| == 1 then parts[0]
    else
      var rest := Join(sep, parts[1..]);
      assert parts[0] + sep + rest + sep == parts[0] + sep + (rest + sep);
      parts[0] + sep + rest
  }

  /** Every part in order, each followed by the separator: the joined string with one trailing separator. */
  function Terminated(sep: string, parts: seq<string>): string {
    if |parts| == 0 then "" else parts[0] + sep + Terminated(sep, parts[1..])
  }
}

=== FILE: wrappers.dfy ===
/** Option and Result: absent values and Python exceptions as data. */
module Wrappers {

  /** A value that may be missing, as with a dictionary key that is absent. */
  datatype Option<+T> = None | Some(value: T) {

    /** The value, or `default` when absent (Python's `dict.get(key, default)`). */
    function GetOr(default: T): T {
      match this
      case Some(v) => v
      case None => default
    }
  }

  /** Either a value or the error a Python statement would have raised. */
  datatype Result<+R, +E> = Success(value: R) | Failure(error: E)
}
